=== FILE: README.md ===
# Kannel WAP application layer: a Dafny model

This project models the application layer of Kannel's WAP gateway
(`gw/wap-appl.c`). That layer sits between the WSP session layers and the
web. It has five parts, each modelled here:

- **map-url rewriting.** The `map-url` and `device-home` configuration
  values become an ordered table of rewrite rules. Every requested URL is
  rewritten by the first rule that matches it, using C `strncasecmp`
  semantics.
- **Content conversion and header negotiation.** WML and WMLScript replies
  are compiled for the phone. Outgoing requests get `Accept` and
  `Accept-Charset` headers for what the gateway can convert.
- **Starting a fetch.** The client's headers are merged and cleaned, the
  gateway adds its own headers, and the request is routed by method: the
  `kannel:alive` health check, forwarded GET/POST/HEAD, or 501.
- **Returning a reply.** Transport failures are turned into a smart WML
  error deck or a 502. Content is converted and headers are cleaned. Two
  guards protect the phone:
  - an error page of a type the phone does not accept is emptied;
  - a body over the phone's SDU (service data unit) limit is suppressed.
- **Push OTA and dispatch.** Connect and resume events for push sessions
  are translated for the Push Proxy Gateway (PPG). This includes
  `Accept-Application` and `Bearer-Indication` decoding (section 6.4.1 of
  WAP-189 PushOTA). The per-event decision of the layer's main loop is
  modelled too.

Modules, one per file:

- `Wrappers`: `Option`.
- `HttpHeaders`: header lists, case-insensitive name matching,
  `split_header_list`, `%ld` rendering, and the gwlib HTTP helpers, which
  are parameters.
- `Events`: the WAP events the layer reads and writes.
- `UrlMap`: the map-url table.
- `Converters`: `convert_content` and `add_accept_headers`.
- `Fetch`: `start_fetch` and its header adders.
- `Reply`: `return_reply`.
- `Push`: the OTA submodule.
- `Dispatcher`: `main_thread`'s switch.

How C is represented:

- A C string is a `string` without NUL characters (`CString`).
- An `Octstr` handed to C code is cut at its first NUL (`CView`). The map-url code is modelled this way; the other places are listed under "Left out".
- `strncasecmp` is modelled character by character, reading NUL past the
  end (`StrNCaseEqFrom`). It is then characterised by a lemma.
- A rule with `in_len = strlen+1` therefore matches exactly, and a rule with
  `in_len = strlen-1` matches by prefix; both are proved, not assumed.
- HTTP status classes follow section 6.1.1 of RFC 2616: success means 200-299.

## Model

| member | source | states |
|---|---|---|
| HttpHeaders.SplitHeaderList | gw/wap-appl.c:1255-1262 | the first half holds only headers called the name, ignoring case; the second half holds none; together they are as long as the input |
| HttpHeaders.SplitIsPartition | gw/wap-appl.c:1255-1262 | the two halves of a split are, as multisets, exactly the input list: nothing is lost or invented |
| HttpHeaders.SplitAppend | gw/wap-appl.c:1255-1262 | splitting a concatenation is concatenating the splits, so list order is kept inside each half |
| HttpHeaders.RemoveAllKeepsOthers | gw/wap-appl.c:1255-1262 | removing every header of one name leaves the count of every other name unchanged |
| HttpHeaders.RemoveAllKeepsOthersSplit | gw/wap-appl.c:1255-1262 | removing every header of one name leaves the headers of any other name exactly as they were, in order |
| HttpHeaders.LongDecimalRoundTrip | gw/wap-appl.c:403-423 | the `%ld` text put in X-WAP-Session-ID and X-WAP-Client-SDU-Size reads back as the same long, negative values included |
| UrlMap.CView | gw/wap-appl.c:1095 | the C view of an Octstr is its longest NUL-free prefix, and it is the whole string when there is no NUL |
| UrlMap.StrNCaseEqMeaning | gw/wap-appl.c:1079 | `strncasecmp(a, b, n) == 0` on C strings means the first n characters agree ignoring case when both are that long, and the whole strings agree otherwise |
| UrlMap.DoConfig | gw/wap-appl.c:964-1015 | an empty source adds nothing; otherwise exactly one well-formed rule is appended at the tail, recording source and destination, and earlier rules are kept |
| UrlMap.RuleMatchMeaning | gw/wap-appl.c:984-992 | a rule whose input ends in `*` matches every URL that starts with the input's stem, ignoring case; any other rule matches only the whole input, ignoring case |
| UrlMap.Find | gw/wap-appl.c:1074-1085 | the rule found matches, and no earlier rule matches; no rule found means none matches |
| UrlMap.MapUrl | gw/wap-appl.c:1091-1112 | a URL that matches no rule comes back unchanged |
| UrlMap.MapUrlFirstMatch | gw/wap-appl.c:1091-1112 | on a match, the result is the first matching rule's output without its trailing `*`, followed by the URL's tail past the stem iff both the input and the output end in `*` |
| UrlMap.MapUrlKeepsSuffix | gw/wap-appl.c:1107-1108 | under a prefix-to-prefix rule, the rewritten URL ends with the original URL's tail past the matched stem |
| UrlMap.AppendKeepsEarlierMatch | gw/wap-appl.c:1009-1014 | appending a rule never changes the rewrite of a URL that an earlier rule already matches |
| UrlMap.StrTok | gw/wap-appl.c:1025-1028 | the token found is a maximal run of non-blank characters after only blanks (space, tab); the scan resumes past one delimiter; no token means only blanks are left |
| UrlMap.Config | gw/wap-appl.c:1020-1033 | a `map-url` value adds at most one rule, keeps the table before it, and keeps the table well formed |
| UrlMap.ConfigAddsRuleIffTwoWords | gw/wap-appl.c:1020-1033 | a rule is added if and only if the value holds two blank-separated words |
| UrlMap.ConfigRuleIsFirstTwoWords | gw/wap-appl.c:1020-1033 | the added rule maps the first word to the second |
| UrlMap.PrefixRuleScenarioTable | gw/wap-appl.c:964-1033 | the value `http://a/* http://b/*` configures one rule, from `http://a/` by prefix to `http://b/` by prefix, with both lengths 9 |
| UrlMap.PrefixRuleRewrite | gw/wap-appl.c:1091-1112 | that one-rule table rewrites `http://a/x/y` to `http://b/x/y` |
| UrlMap.ConfigDeviceHome | gw/wap-appl.c:1039-1057 | as written: the `DEVICE:home*` rule is appended, and its destination always gets one more `*`, even when it already ends in one |
| UrlMap.DeviceHomeAsWrittenRewrite | gw/wap-appl.c:1039-1057 | as written, `DEVICE:home` plus a tail is rewritten to the configured destination plus the tail, with any `*` of the destination kept |
| UrlMap.ConfigDeviceHomeIntended | gw/wap-appl.c:1039-1057 | corrected: a `*` is appended only when the destination lacks one, so the rule's output is the destination's stem |
| UrlMap.DeviceHomeIntendedRewrite | gw/wap-appl.c:1039-1057 | corrected: `DEVICE:home` plus a tail is rewritten to the destination's stem plus the tail |
| UrlMap.DeviceHomeStarCounterexample | gw/wap-appl.c:1047 | for the destination `http://h/*`, `DEVICE:home` becomes `http://h/*` as written but `http://h/` as intended |
| Converters.ConvertContent | gw/wap-appl.c:328-352 | Converted iff some row for the content type compiles, with the first such row's result type and body; AllFailed iff some row applies and none succeeds; NoConverter iff no row applies; content unchanged unless Converted |
| Converters.ConvertWml | gw/wap-appl.c:130-132 | WML that compiles becomes `application/vnd.wap.wmlc` with the compiled body |
| Converters.ConvertWmlFails | gw/wap-appl.c:328-352 | WML that does not compile is reported as a failure and passed on unchanged |
| Converters.ConvertOtherType | gw/wap-appl.c:328-352 | content of any other type is passed on unchanged as having no converter |
| Converters.AddAcceptHeaders | gw/wap-appl.c:381-391 | headers are only appended, all named Accept; a source type is added iff the client accepts its result type and not the source type itself; the additions come in table order, WML before WMLScript |
| Fetch.ExtractRequest | gw/wap-appl.c:745-769 | a connectionless request has no session headers, session id -1 and no SDU limit; a session request carries its own |
| Fetch.ClientHeaders | gw/wap-appl.c:773-781 | the forwarded list is the merged list with every X-WAP.TOD header removed, so it holds none; the flag is set iff the merged headers held one |
| Fetch.AddCharsetHeaders | gw/wap-appl.c:366-378 | headers are only appended, each `Accept-Charset` naming one of the gateway's charsets, no more of them than charsets listed; nothing is added iff the client already accepts every charset |
| Fetch.AddCharsetStep | gw/wap-appl.c:366-378 | charset i adds `Accept-Charset: <charset>` exactly when it is not accepted on the list the earlier charsets left, and otherwise adds nothing |
| Fetch.CharsetsAllAccepted | gw/wap-appl.c:366-378 | when acceptance survives added headers and an `Accept-Charset: c` header makes c accepted, the request leaves accepting every supported charset and every charset it accepted before |
| Fetch.BuildHeaders | gw/wap-appl.c:773-802 | the outgoing headers are, in order, the client's cleaned headers, the Accept headers AddAcceptHeaders adds to them, the Accept-Charset headers AddCharsetHeaders then adds, and the headers the gateway synthesizes; the X-WAP.TOD flag is the one found in the client's headers |
| Fetch.SessionIdHeaderIffSession | gw/wap-appl.c:403-410 | X-WAP-Session-ID is added exactly for session requests, as the last header, and its value reads back as the session id |
| Fetch.SduSizeHeaderIffLimit | gw/wap-appl.c:413-423 | X-WAP-Client-SDU-Size is added exactly when the client declared a positive limit, and the outgoing headers carry it with the limit in decimal, which reads back as that limit |
| Fetch.NetworkInfoIffAddress | gw/wap-appl.c:394-400 | X_Network_Info is added exactly when the peer's address is non-empty, and then the outgoing headers carry it with that address |
| Fetch.RefererIffStored | gw/wap-appl.c:794-799 | Referer is added exactly for a session request whose session stored a non-empty referer, and then the outgoing headers carry that referer |
| Fetch.NoTodForwarded | gw/wap-appl.c:781 | no X-WAP.TOD header is ever forwarded to the web server |
| Fetch.GatewayAlwaysIdentified | gw/wap-appl.c:773-802 | every forwarded request gets one more Via and one more X-WAP-Gateway header than the client sent, carrying the gateway's host, name and version |
| Fetch.RouteRequest | gw/wap-appl.c:806-847 | health check iff GET of exactly `kannel:alive`; not implemented iff the method is not GET, POST or HEAD; a forwarded body is kept only for POST |
| Fetch.StartFetch | gw/wap-appl.c:724-848 | the saved context holds the rewritten URL, session id, SDU limit, and the headers and X-WAP.TOD flag BuildHeaders gives, so no X-WAP.TOD is sent; status 200 with the health deck iff the rewritten URL is the health check; 501 with nothing iff the method is unsupported; an HTTP request with those headers, the method and the rewritten URL iff the method is GET, POST or HEAD and the request is not the health check |
| Reply.BackTarget | gw/wap-appl.c:547-561 | a smart error leads back to the session referer if there is one, else to device-home if configured, else nowhere |
| Reply.FailureContent | gw/wap-appl.c:535-580 | a transport failure becomes 200 with a WML error deck toward BackTarget when smart errors are on, and 502 with an empty text/plain body when they are off |
| Reply.Prepare | gw/wap-appl.c:535-619 | a real response keeps its status and its content is ConvertContent of the body with its declared type and charset, converted iff that succeeds; a failure with smart errors is the converted FailureContent deck; without them it is FailureContent unconverted; headers are re-marked only after a conversion |
| Reply.CleanHeaders | gw/wap-appl.c:621-626 | the reply carries exactly one X-WAP.TOD, the gateway's, when the client sent one and the time is known, and none otherwise; for every other name, the headers of that name are exactly those left after hop-by-hop removal, with their values and in order |
| Reply.CompatGuard | gw/wap-appl.c:638-647 | an error status with a type the client does not accept gets an empty text/plain body; anything else passes unchanged |
| Reply.SizeGuard | gw/wap-appl.c:653-667 | a body over a positive SDU limit is dropped, a success status then becomes 502 and an error status stays; anything else passes unchanged |
| Reply.ApplyGuards | gw/wap-appl.c:638-667 | the body fits a positive limit; a status changes only from success-class to 502; an oversized body never leaves under a success status; an unreadable error page arrives empty as text/plain; a fitting reply the client can read passes untouched, error status or not; the type changes only when the compatibility guard fires |
| Reply.OversizeScenario | gw/wap-appl.c:653-667 | a 200-byte 200 reply to a client with a 100-byte limit becomes an empty 502 |
| Reply.ReturnReply | gw/wap-appl.c:523-683 | a session request is answered with a method result for its transaction and session, a connectionless one with a unit result to its address; the status and body delivered are ApplyGuards of Prepare's result; headers are CleanHeaders of Prepare's when no guard fires; a referer is set, to the request URL as rewritten by map-url, iff the reply is a converted real response of a session request whose session exists |
| Reply.UnconvertedSuccessArrives | gw/wap-appl.c:523-683 | a success-class reply of a type no converter handles, fitting the SDU limit, reaches the client with its status and body unchanged, its headers cleaned, and sets no referer |
| Reply.ErrorPageArrives | gw/wap-appl.c:597-667 | an error reply of a type the client accepts and no converter handles, fitting the SDU limit, reaches the client with its status and body unchanged and sets no referer |
| Reply.HealthCheckReply | gw/wap-appl.c:806-817 | the health check's immediate reply (200, WML, the health deck) reaches the client as 200 with the compiled deck when it compiles and fits |
| Reply.SmartErrorReply | gw/wap-appl.c:539-574 | a transport failure with smart errors reaches the client as 200 with the compiled error deck, and sets no referer |
| Reply.RefererFollowsConversion | gw/wap-appl.c:595-617 | a compiled WML page in a session sets the session referer to its URL; content of an unconvertible type never does |
| Push.CheckApplicationHeaders | gw/wap-appl.c:1145-1161 | Accept-Application headers leave the list; with none, or no list, the application is `wml ua`; otherwise exactly the found headers, in order, are carried on undecoded |
| Push.FirstOctet | gw/wap-appl.c:1234 | the first octet of a value read as an unsigned char; an empty value reads as 0xff |
| Push.DecodeBearerIndication | gw/wap-appl.c:1202-1248 | every Bearer-Indication header leaves the list; at most one bearer header is produced, and only from a list with exactly one |
| Push.BearerAbsent | gw/wap-appl.c:1216-1220 | without a Bearer-Indication header the list is unchanged and no bearer is indicated |
| Push.BearerSingle | gw/wap-appl.c:1229-1247 | with exactly one, the list loses just it, and a non-zero code with a name gives exactly `Bearer-Indication: <name>`; any other value gives none |
| Push.BearerDuplicate | gw/wap-appl.c:1223-1227 | with two or more, no bearer is indicated and all of them leave the list |
| Push.IndicatePushConnection | gw/wap-appl.c:1268-1301 | the PPG connect indication keeps address, capabilities and session; its push headers are the client's without Accept-Application and Bearer-Indication headers; its bearer field is the decoded bearer, no field when none, and present only when the client sent exactly one Bearer-Indication |
| Push.IndicatePushResume | gw/wap-appl.c:1366-1391 | the PPG resume indication keeps address and session; its headers are the client's without Bearer-Indication; its bearer field is the decoded bearer, no field when none, and present only when the client sent exactly one |
| Push.MissingApplicationDefaults | gw/wap-appl.c:1155-1161 | a connecting client that names no application is assumed to want `wml ua` |
| Push.DuplicateBearerDropped | gw/wap-appl.c:1223-1227 | a connecting client that sends two bearer indications gets none passed to the PPG |
| Push.ConnectBearerSingle | gw/wap-appl.c:1283-1291 | a connecting client with exactly one Bearer-Indication header whose first octet is a named non-zero code has that bearer passed to the PPG under its name |
| Dispatcher.Dispatch | gw/wap-appl.c:221-325 | at most two effects; a fetch iff the event is a pull request; a session request is acknowledged before its fetch and a connectionless one is only fetched; a disconnect or suspend without a push session does nothing; connect and resume always get exactly one answer, from the PPG iff a push session exists; the PPG is sent exactly the PpgIndication translation of the event iff ForwardedToPpg holds (session events only with a PPG configured, push confirmations and aborts always), and nothing otherwise; the PPG's connect response goes back to WSP; other events panic |
| Dispatcher.DispatchAsWritten | gw/wap-appl.c:271-277 | as written, a suspend is handled as Dispatch handles it on a gateway with a PPG configured: the suspend indication goes to the PPG iff the lookup answers yes, and nothing is done otherwise, whether or not a PPG is configured; every other event is handled as Dispatch handles it |
| Dispatcher.SuspendWithoutPpg | gw/wap-appl.c:271-277 | without a configured PPG, the as-written suspend still goes to the PPG when the lookup answers yes; Dispatch sends nothing |
| Dispatcher.AsWrittenAgreesWithPpg | gw/wap-appl.c:221-325 | with a PPG configured, the as-written and corrected dispatch agree on every event |
| Dispatcher.PushConnectScenario | gw/wap-appl.c:243-248 | a connect from a known push initiator goes to the PPG, with the default application when the client sent no headers |

## Left out

- The threads, the event queue and `wap_appl_get_load`. `main_thread` and `return_replies_thread` loop over a blocking queue and the HTTP client. The `fetches` counter only tracks load. The model covers one event and one reply at a time.
- `gwlib/gwthread-pthread.c`: POSIX thread plumbing, with no behaviour of the layer in it.
- `gw/dlr_sdb.c`: SQL text handed to a library that is not part of this model.
- gwlib helpers. `gwlib/http.c` is not part of this model. Header combining, hop-by-hop removal, `http_type_accepted`, `http_charset_accepted`, `http_header_get_content_type` and `http_header_mark_transformation` are parameters (`HttpLib`).
  - Name lookup and removal in header lists are modelled concretely, as case-insensitive.
  - `http_header_pack`, `http_start_request` and the HTTP method codes are left out.
- Foreign functions, also parameters:
  - the WML and WMLScript compilers;
  - `error_requesting`, `error_requesting_back`;
  - `wsp_bearer_indication_to_cstr`;
  - the PPG session lookups;
  - `get_official_name`, `VERSION`;
  - the wall-clock time formatted for X-WAP.TOD.
- Cookies (`ENABLE_COOKIES`), logging, and memory ownership.
- `wsp_http_map_url_config_info` (an info dump) and `wsp_http_map_destroy` (freeing).
- The initialisation and shutdown code (`wap_appl_init`, `wap_appl_shutdown`).
- Push.CheckApplicationHeaders: the branch for present Accept-Application headers (gw/wap-appl.c:1164-1192) is not modelled.
  - That branch casts a string pointer to `long`, and its loop never shrinks its list.
  - The model carries the found headers on undecoded (`UndecodedAppIds`).
- Push.DecodeBearerIndication: on an illegal bearer value the source frees the caller's bearer list (gw/wap-appl.c:1245), which the caller then reads. The model gives the intended outcome, no bearer header.
- Reply.Prepare: a reply with no body is converted as the empty body. The source passes the NULL body to the converters, and replaces it with the empty body only afterwards (gw/wap-appl.c:628).
- Reply.ReturnReply: states the reply headers only when neither guard fires. A guard that fires re-marks them with `http_header_mark_transformation`, which is a parameter. CleanHeaders states the X-WAP.TOD rule before the guards.
- Fetch.BuildHeaders: the header-count lemmas are stated for the names the gateway adds. The Accept and Accept-Charset segment is stated as AddAcceptHeaders and AddCharsetHeaders give it; which entries those add depends on the acceptance helpers, which are parameters.
- Converters.ConvertContent and Fetch.RouteRequest compare content types and method names as whole strings. The source compares them with `octstr_str_compare`, which sees the Octstr only up to its first NUL; the two agree for every value without a NUL character.
- Fetch.AddCharsetHeaders, Fetch.Synthesized, Reply.CleanHeaders and Reply.CompatGuard keep header values and content types whole. The source hands them to gwlib as C strings (`octstr_get_cstr`): the Accept-Charset values (gw/wap-appl.c:373), X_Network_Info (gw/wap-appl.c:398), the X-WAP.TOD time (gw/wap-appl.c:453), the Referer (gw/wap-appl.c:461) and the compatibility guard's content type (gw/wap-appl.c:639). These would be cut at a first NUL; the model agrees with the source for every value without one.
- UrlMap.DoConfig: `char *` arguments are required to be NUL-free C strings, and a destination is required to be non-empty. `wsp_http_map_url_config` never passes an empty one, and the source reads `dst[-1]` for it.

## Findings

| source | as written | input that shows it | evidently intended | confidence | as-written member | corrected member |
|---|---|---|---|---|---|---|
| gw/wap-appl.c:1047 | `to[len] != '*'` tests the terminating NUL, so a `*` is always appended | device-home `http://h/*`: `DEVICE:home` is rewritten to `http://h/*` | test `to[len-1]`, append `*` only when missing, giving `http://h/` | high; not executed | UrlMap.ConfigDeviceHome, UrlMap.DeviceHomeStarCounterexample | UrlMap.ConfigDeviceHomeIntended, UrlMap.DeviceHomeIntendedRewrite |
| gw/wap-appl.c:274 | the suspend case asks the PPG for the session without testing `have_ppg` | an S_Suspend_Ind on a gateway with no PPG configured, when the session lookup answers yes | test `have_ppg` first, as the other session cases do and as the comment at gw/wap-appl.c:219-220 requires | medium; not executed | Dispatcher.DispatchAsWritten, Dispatcher.SuspendWithoutPpg | Dispatcher.Dispatch |

=== FILE: converters.dfy ===
/**
 * The content converter registry: a fixed, ordered table of (source type,
 * result type, compiler) rows applied to a response body, and the Accept
 * headers the gateway adds so that servers send what it can convert.
 */
module Converters {
  import opened Wrappers
  import opened HttpHeaders

  /** struct content: body, MIME type, charset and source URL of a response. */
  datatype Content = Content(body: string, contentType: string, charset: string, url: string)

  /** Which compiler a row runs. */
  datatype Transform = WmlToWmlc | WmlScriptToWmlScriptc

  datatype Converter = Converter(sourceType: string, resultType: string, transform: Transform)

  const Wml := "text/vnd.wap.wml"
  const Wmlc := "application/vnd.wap.wmlc"
  const WmlScript := "text/vnd.wap.wmlscript"
  const WmlScriptc := "application/vnd.wap.wmlscriptc"

  /** converters[], in table order. */
  const Registry: seq<Converter> :=
    [Converter(Wml, Wmlc, WmlToWmlc), Converter(WmlScript, WmlScriptc, WmlScriptToWmlScriptc)]

  /**
   * The compilers, which are not part of this model: wml(body, charset) is
   * wml_compile and wmlScript(url, body) is ws_compile_data; None is failure.
   */
  datatype Compilers = Compilers(wml: (string, string) -> Option<string>, wmlScript: (string, string) -> Option<string>)

  /** convert_wml_to_wmlc / convert_wmlscript_to_wmlscriptc. */
  function Run(tr: Transform, c: Content, comp: Compilers): Option<string> {
    match tr
    case WmlToWmlc => comp.wml(c.body, c.charset)
    case WmlScriptToWmlScriptc => comp.wmlScript(c.url, c.body)
  }

  /** convert_content's result: 1, -1 and 0 in the source. */
  datatype Outcome = Converted | AllFailed | NoConverter

  /** Row k is for the content's type. */
  predicate Applies(table: seq<Converter>, k: int, c: Content) {
    0 <= k < |table| && table[k].sourceType == c.contentType
  }

  /** Row k is for the content's type and its compiler produces output. */
  predicate Succeeds(table: seq<Converter>, k: int, c: Content, comp: Compilers) {
    Applies(table, k, c) && Run(table[k].transform, c, comp).Some?
  }

  /** What row k turns the content into. */
  function Output(table: seq<Converter>, k: int, c: Content, comp: Compilers): Content
    requires Succeeds(table, k, c, comp)
  {
    c.(body := Run(table[k].transform, c, comp).value, contentType := table[k].resultType)
  }

  /** The scan of convert_content from row i, with `failed` recording an earlier failed row. */
  function ConvertFrom(table: seq<Converter>, c: Content, comp: Compilers, i: nat, failed: bool): (r: (Outcome, Content))
    requires i <= |table|
    ensures r.0 == Converted <==> exists k :: i <= k < |table| && Succeeds(table, k, c, comp)
    ensures r.0 == NoConverter <==> !failed && forall k :: i <= k < |table| ==> !Applies(table, k, c)
    ensures r.0 != Converted ==> r.1 == c
    ensures r.0 == Converted ==>
      exists k :: i <= k < |table| && Succeeds(table, k, c, comp) && r.1 == Output(table, k, c, comp) &&
        forall j :: i <= j < k ==> !Succeeds(table, j, c, comp)
    decreases |table| - i
  {
    if i == |table| then (if failed then AllFailed else NoConverter, c)
    else if table[i].sourceType == c.contentType then
      match Run(table[i].transform, c, comp)
      case Some(body) =>
        assert Succeeds(table, i, c, comp) && Applies(table, i, c);
        (Converted, c.(body := body, contentType := table[i].resultType))
      case None =>
        assert !Succeeds(table, i, c, comp) && Applies(table, i, c);
        ConvertFrom(table, c, comp, i + 1, true)
    else
      assert !Applies(table, i, c);
      ConvertFrom(table, c, comp, i + 1, failed)
  }

  /**
   * convert_content: the first row for the content's type whose compiler
   * succeeds replaces body and type; otherwise the content is unchanged and
   * the outcome tells "some row failed" from "no row applies".
   */
  function ConvertContent(table: seq<Converter>, c: Content, comp: Compilers): (r: (Outcome, Content))
    ensures r.0 == Converted <==> exists k :: Succeeds(table, k, c, comp)
    ensures r.0 == NoConverter <==> forall k :: 0 <= k < |table| ==> !Applies(table, k, c)
    ensures r.0 == AllFailed <==>
      (exists k :: Applies(table, k, c)) && forall k :: 0 <= k < |table| ==> !Succeeds(table, k, c, comp)
    ensures r.0 != Converted ==> r.1 == c
    ensures r.0 == Converted ==>
      exists k :: Succeeds(table, k, c, comp) && r.1 == Output(table, k, c, comp) &&
        forall j :: 0 <= j < k ==> !Succeeds(table, j, c, comp)
  {
    ConvertFrom(table, c, comp, 0, false)
  }

  /** A WML body that compiles becomes WMLC with the compiled bytes. */
  lemma ConvertWml(c: Content, comp: Compilers, compiled: string)
    requires c.contentType == Wml && comp.wml(c.body, c.charset) == Some(compiled)
    ensures ConvertContent(Registry, c, comp) == (Converted, c.(body := compiled, contentType := Wmlc))
  {
    assert Succeeds(Registry, 0, c, comp);
  }

  /** A WML body that does not compile is passed on unchanged, reported as a failure. */
  lemma ConvertWmlFails(c: Content, comp: Compilers)
    requires c.contentType == Wml && comp.wml(c.body, c.charset).None?
    ensures ConvertContent(Registry, c, comp) == (AllFailed, c)
  {
    assert Applies(Registry, 0, c);
    assert Registry[1].sourceType != Wml;
  }

  /** Content of a type no row names is passed on unchanged. */
  lemma ConvertOtherType(c: Content, comp: Compilers)
    requires c.contentType != Wml && c.contentType != WmlScript
    ensures ConvertContent(Registry, c, comp) == (NoConverter, c)
  {
  }

  /** add_accept_headers from row i on; each test sees the headers added before it. */
  function AddAcceptFrom(table: seq<Converter>, hs: Headers, accepted: (Headers, string) -> bool, i: nat): (r: Headers)
    requires i <= |table|
    ensures |hs| <= |r| <= |hs| + (|table| - i) && r[..|hs|] == hs
    ensures forall j :: |hs| <= j < |r| ==> r[j].0 == "Accept"
    decreases |table| - i
  {
    if i == |table| then hs
    else
      var hs' := if accepted(hs, table[i].resultType) && !accepted(hs, table[i].sourceType)
                 then hs + [("Accept", table[i].sourceType)] else hs;
      AddAcceptFrom(table, hs', accepted, i + 1)
  }

  /**
   * add_accept_headers: "Accept: <source type>" is added for a row exactly
   * when the client accepts the row's result type but not its source type,
   * judged on the list as the earlier rows have left it.
   */
  function AddAcceptHeaders(hs: Headers, accepted: (Headers, string) -> bool): (r: Headers)
    ensures |hs| <= |r| && r[..|hs|] == hs && forall j :: |hs| <= j < |r| ==> r[j].0 == "Accept"
    ensures ("Accept", Wml) in r[|hs|..] <==> accepted(hs, Wmlc) && !accepted(hs, Wml)
    ensures var h1 := if ("Accept", Wml) in r[|hs|..] then hs + [("Accept", Wml)] else hs;
      ("Accept", WmlScript) in r[|hs|..] <==> accepted(h1, WmlScriptc) && !accepted(h1, WmlScript)
    ensures r[|hs|..] == (if ("Accept", Wml) in r[|hs|..] then [("Accept", Wml)] else [])
                       + (if ("Accept", WmlScript) in r[|hs|..] then [("Accept", WmlScript)] else [])
    ensures |r| == |hs| + (if ("Accept", Wml) in r[|hs|..] then 1 else 0)
                        + (if ("Accept", WmlScript) in r[|hs|..] then 1 else 0)
  {
    var r := AddAcceptFrom(Registry, hs, accepted, 0);
    var h1 := if accepted(hs, Wmlc) && !accepted(hs, Wml) then hs + [("Accept", Wml)] else hs;
    var h2 := if accepted(h1, WmlScriptc) && !accepted(h1, WmlScript) then h1 + [("Accept", WmlScript)] else h1;
    assert Registry[0] == Converter(Wml, Wmlc, WmlToWmlc);
    assert Registry[1] == Converter(WmlScript, WmlScriptc, WmlScriptToWmlScriptc);
    assert r == AddAcceptFrom(Registry, h1, accepted, 1);
    assert AddAcceptFrom(Registry, h1, accepted, 1) == AddAcceptFrom(Registry, h2, accepted, 2);
    assert r == h2;
    assert Wml != WmlScript by { assert |Wml| != |WmlScript|; }
    var c1 := accepted(hs, Wmlc) && !accepted(hs, Wml);
    var c2 := accepted(h1, WmlScriptc) && !accepted(h1, WmlScript);
    var added := (if c1 then [("Accept", Wml)] else []) + (if c2 then [("Accept", WmlScript)] else []);
    assert h2 == hs + added;
    assert r[|hs|..] == added;
    assert ("Accept", Wml) in added <==> c1;
    assert ("Accept", WmlScript) in added <==> c2;
    r
  }
}

=== FILE: dispatcher.dfy ===
/**
 * main_thread's per-event decision: what the application layer does with
 * each event taken off its queue. Pull requests are fetched (a session
 * request is acknowledged first); session events for a push session go to
 * the PPG, others are answered directly; push confirmations and aborts go
 * to the PPG; the PPG's connect response goes back to the session layer;
 * any other event is fatal.
 */
module Dispatcher {
  import opened Events
  import opened Push

  /** One thing the layer does in response to an event, in order. */
  datatype Effect =
    | ToWsp(wsp: WspEvent)
    | BeginFetch(request: Event)
    | ToPpg(ppg: PpgEvent)
    | Panic(eventName: string)

  /**
   * What the layer may ask about push: whether a PPG is configured
   * (have_ppg), and the PPG's answers to wap_push_ppg_have_push_session_for
   * and wap_push_ppg_have_push_session_for_sid.
   */
  datatype PushState = PushState(havePpg: bool, sessionForAddr: AddrTuple -> bool, sessionForSid: int -> bool)

  /** A push session is known for `sid`, asking the PPG only when one is configured. */
  predicate PushSessionFor(st: PushState, sid: int) {
    st.havePpg && st.sessionForSid(sid)
  }

  /** The session events whose handling depends on the push session lookup. */
  predicate IsSessionEvent(e: Event) {
    e.ConnectInd? || e.DisconnectInd? || e.SuspendInd? || e.ResumeInd?
  }

  /** The events that can give rise to an event for the PPG. */
  predicate ConcernsPpg(e: Event) {
    IsSessionEvent(e) || e.ConfirmedPushCnf? || e.PushAbortInd?
  }

  /** The session an event for the PPG is about. */
  function SessionOf(e: Event): int
    requires ConcernsPpg(e)
  {
    if e.DisconnectInd? then e.sessionHandle else e.sessionId
  }

  /**
   * The event the PPG is sent for an event that concerns it: the push
   * session events are translated (with the push headers decoded on
   * connect and resume), confirmations and aborts are passed on.
   */
  function PpgIndication(e: Event, names: BearerNames): (r: PpgEvent)
    requires ConcernsPpg(e)
    ensures PpgSession(r) == SessionOf(e)
  {
    match e
    case ConnectInd(_, _, _, _) => IndicatePushConnection(e, names)
    case DisconnectInd(_, _, _, _) => IndicatePushDisconnect(e)
    case SuspendInd(_, _) => IndicatePushSuspend(e)
    case ResumeInd(_, _, _) => IndicatePushResume(e, names)
    case ConfirmedPushCnf(_, _) => ConfirmPush(e)
    case PushAbortInd(_, _, _) => IndicatePushAbort(e)
  }

  /**
   * When the PPG hears of an event: a connect when a PPG is configured and
   * knows the initiator, a disconnect, suspend or resume when a PPG is
   * configured and knows the session, and every push confirmation and
   * push abort, which are forwarded without asking.
   */
  predicate ForwardedToPpg(e: Event, st: PushState) {
    ConcernsPpg(e) &&
    (e.ConnectInd? ==> st.havePpg && st.sessionForAddr(e.addrTuple)) &&
    (e.DisconnectInd? || e.SuspendInd? || e.ResumeInd? ==> PushSessionFor(st, SessionOf(e)))
  }

  /**
   * The switch of main_thread, with the PPG consulted about a session only
   * when a PPG is configured. negotiate_capabilities agrees to no
   * capability, so a connect answered here carries an empty list.
   */
  function Dispatch(e: Event, st: PushState, names: BearerNames): (r: seq<Effect>)
    ensures |r| <= 2
    ensures IsPull(e) <==> BeginFetch(e) in r
    ensures forall i :: 0 <= i < |r| && r[i].BeginFetch? ==> r[i].request == e
    ensures e.OtherEvent? ==> r == [Panic(e.name)]
    ensures forall i :: 0 <= i < |r| && r[i].Panic? ==> e.OtherEvent?
    ensures e.MethodInvokeInd? ==>
      r == [ToWsp(MethodInvokeRes(e.serverTransactionId, e.sessionId)), BeginFetch(e)]
    ensures e.ConnectInd? || e.ResumeInd? ==> |r| == 1
    ensures forall i :: 0 <= i < |r| && r[i].ToPpg? ==> ConcernsPpg(e) && PpgSession(r[i].ppg) == SessionOf(e)
    ensures forall i :: 0 <= i < |r| && r[i].ToPpg? && IsSessionEvent(e) ==> st.havePpg
    ensures e.ConnectInd? ==>
      (r[0].ToPpg? <==> st.havePpg && st.sessionForAddr(e.addrTuple)) &&
      (!r[0].ToPpg? ==> r[0] == ToWsp(ConnectRes(e.sessionId, [])))
    ensures e.ResumeInd? ==>
      (r[0].ToPpg? <==> PushSessionFor(st, e.sessionId)) && (!r[0].ToPpg? ==> r[0] == ToWsp(ResumeRes(e.sessionId)))
    ensures e.DisconnectInd? || e.SuspendInd? ==> (|r| == 1 <==> PushSessionFor(st, SessionOf(e)))
    ensures e.MethodResultCnf? || e.MethodAbortInd? ==> r == []
    ensures e.UnitMethodInvokeInd? ==> r == [BeginFetch(e)]
    ensures (e.DisconnectInd? || e.SuspendInd?) && !PushSessionFor(st, SessionOf(e)) ==> r == []
    ensures ForwardedToPpg(e, st) ==> r == [ToPpg(PpgIndication(e, names))]
    ensures !ForwardedToPpg(e, st) ==> forall i :: 0 <= i < |r| ==> !r[i].ToPpg?
    ensures e.ConfirmedPushCnf? ==> r == [ToPpg(ConfirmPush(e))]
    ensures e.PushAbortInd? ==> r == [ToPpg(IndicatePushAbort(e))]
    ensures e.PomConnectRes? ==> r == [ToWsp(ResponsePushConnection(e))]
  {
    match e
    case MethodInvokeInd(tid, sid, _, _, _, _, _, _, _) => [ToWsp(MethodInvokeRes(tid, sid)), BeginFetch(e)]
    case UnitMethodInvokeInd(_, _, _, _, _, _) => [BeginFetch(e)]
    case ConnectInd(addr, _, _, sid) =>
      if st.havePpg && st.sessionForAddr(addr) then [ToPpg(IndicatePushConnection(e, names))]
      else [ToWsp(ConnectRes(sid, []))]
    case DisconnectInd(_, _, _, handle) =>
      if PushSessionFor(st, handle) then [ToPpg(IndicatePushDisconnect(e))] else []
    case SuspendInd(_, sid) =>
      if PushSessionFor(st, sid) then [ToPpg(IndicatePushSuspend(e))] else []
    case ResumeInd(_, _, sid) =>
      if PushSessionFor(st, sid) then [ToPpg(IndicatePushResume(e, names))] else [ToWsp(ResumeRes(sid))]
    case MethodResultCnf(_, _) => []
    case MethodAbortInd(_, _) => []
    case ConfirmedPushCnf(_, _) => [ToPpg(ConfirmPush(e))]
    case PushAbortInd(_, _, _) => [ToPpg(IndicatePushAbort(e))]
    case PomConnectRes(_, _) => [ToWsp(ResponsePushConnection(e))]
    case OtherEvent(name) => [Panic(name)]
  }

  /**
   * main_thread as written: the suspend case asks the PPG about the session
   * without first checking that a PPG is configured; every other case is
   * Dispatch.
   */
  function DispatchAsWritten(e: Event, st: PushState, names: BearerNames): (r: seq<Effect>)
    ensures !e.SuspendInd? ==> r == Dispatch(e, st, names)
    ensures e.SuspendInd? ==> (|r| == 1 <==> st.sessionForSid(e.sessionId))
    ensures e.SuspendInd? ==> r == Dispatch(e, st.(havePpg := true), names)
  {
    if e.SuspendInd? then
      if st.sessionForSid(e.sessionId) then [ToPpg(IndicatePushSuspend(e))] else []
    else Dispatch(e, st, names)
  }

  /**
   * The as-written suspend case sends an indication to the PPG on a
   * gateway that has none configured, whenever the session lookup answers
   * yes; Dispatch sends nothing there.
   */
  lemma SuspendWithoutPpg(e: Event, st: PushState, names: BearerNames)
    requires e.SuspendInd? && !st.havePpg && st.sessionForSid(e.sessionId)
    ensures DispatchAsWritten(e, st, names) == [ToPpg(PomSuspendInd(e.reason, e.sessionId))]
    ensures Dispatch(e, st, names) == []
  {
  }

  /** With a PPG configured the two agree on every event. */
  lemma AsWrittenAgreesWithPpg(e: Event, st: PushState, names: BearerNames)
    requires st.havePpg
    ensures DispatchAsWritten(e, st, names) == Dispatch(e, st, names)
  {
  }

  /** A connect for a known push initiator carries the decoded push headers to the PPG. */
  lemma PushConnectScenario(e: Event, st: PushState, names: BearerNames)
    requires e.ConnectInd? && st.havePpg && st.sessionForAddr(e.addrTuple)
    ensures var r := Dispatch(e, st, names);
      r == [ToPpg(IndicatePushConnection(e, names))] && r[0].ppg.PomConnectInd? &&
      (e.clientHeaders.None? ==> r[0].ppg.acceptApplication == AppHeaders([(AcceptApplication, DefaultApplication)]))
  {
  }
}

=== FILE: events.dfy ===
/**
 * The WAP events the application layer consumes and produces (the
 * variants of WAPEvent it touches), with only the fields it reads or sets.
 */
module Events {
  import opened Wrappers
  import opened HttpHeaders

  /** WAPAddrTuple: the remote and local address/port pairs. */
  datatype AddrTuple = AddrTuple(remoteAddress: string, remotePort: int, localAddress: string, localPort: int)

  /** A WSP capability (id, encoded data, accept flag). */
  datatype Capability = Capability(id: int, data: Option<string>, accept: bool)

  /** The one field of a WSP session machine the layer reads and writes. */
  datatype SessionMachine = SessionMachine(refererUrl: Option<string>)

  /** Events put on the application layer's queue. */
  datatype Event =
    | MethodInvokeInd(serverTransactionId: int, sessionId: int, addrTuple: AddrTuple, httpMethod: string,
                      requestUri: string, sessionHeaders: Option<Headers>, requestHeaders: Option<Headers>,
                      requestBody: Option<string>, clientSduSize: int)
    | UnitMethodInvokeInd(transactionId: int, addrTuple: AddrTuple, httpMethod: string, requestUri: string,
                          requestHeaders: Option<Headers>, requestBody: Option<string>)
    | ConnectInd(addrTuple: AddrTuple, requestedCapabilities: seq<Capability>, clientHeaders: Option<Headers>,
                 sessionId: int)
    | DisconnectInd(reasonCode: int, errorHeaders: Option<string>, errorBody: Option<string>, sessionHandle: int)
    | SuspendInd(reason: int, sessionId: int)
    | ResumeInd(addrTuple: AddrTuple, clientHeaders: Option<Headers>, sessionId: int)
    | MethodResultCnf(serverTransactionId: int, sessionId: int)
    | MethodAbortInd(transactionId: int, sessionId: int)
    | ConfirmedPushCnf(serverPushId: int, sessionId: int)
    | PushAbortInd(pushId: int, reason: int, sessionId: int)
    | PomConnectRes(sessionId: int, negotiatedCapabilities: seq<Capability>)
    | OtherEvent(name: string)

  /** A pull request: what start_fetch accepts. */
  predicate IsPull(e: Event) {
    e.MethodInvokeInd? || e.UnitMethodInvokeInd?
  }

  /** Events the layer sends to the WSP session and connectionless layers. */
  datatype WspEvent =
    | MethodInvokeRes(serverTransactionId: int, sessionId: int)
    | ConnectRes(sessionId: int, negotiatedCapabilities: seq<Capability>)
    | ResumeRes(sessionId: int)
    | MethodResultReq(serverTransactionId: int, status: int, responseHeaders: Headers, responseBody: string,
                      sessionId: int)
    | UnitMethodResultReq(addrTuple: AddrTuple, transactionId: int, status: int, responseHeaders: Headers,
                          responseBody: string)
}

=== FILE: fetch.dfy ===
/**
 * start_fetch: turning a pull request into an HTTP request. The URL is
 * rewritten, the client's headers are merged and extended with the
 * gateway's own, and the request is either answered at once (the
 * "kannel:alive" health check, unsupported methods) or handed to the HTTP
 * client together with the context needed to answer it later.
 */
module Fetch {
  import opened Wrappers
  import opened HttpHeaders
  import opened Events
  import opened UrlMap
  import opened Converters

  /** GW_NAME */
  const GatewayName := "Kannel"

  /** Names of the headers the gateway synthesizes. */
  const XWapTod := "X-WAP.TOD"
  const AcceptCharset := "Accept-Charset"
  const NetworkInfoName := "X_Network_Info"
  const SduSizeName := "X-WAP-Client-SDU-Size"
  const ViaName := "Via"
  const RefererName := "Referer"
  const GatewayHeaderName := "X-WAP-Gateway"
  const SessionIdName := "X-WAP-Session-ID"

  /**
   * Gateway facts the layer reads from elsewhere: the charsets the WML
   * compiler handles (wml_charsets), the host name (get_official_name) and
   * VERSION.
   */
  datatype GatewayInfo = GatewayInfo(charsets: seq<string>, officialName: string, version: string)

  /** What start_fetch reads from a pull event. */
  datatype PullRequest = PullRequest(sessionHeaders: Option<Headers>, requestHeaders: Option<Headers>, url: string,
                                     addrTuple: AddrTuple, sessionId: int, clientSduSize: int,
                                     body: Option<string>, httpMethod: string)

  /**
   * The fields of either pull event; a connectionless request has no
   * session headers, session id -1 and no size limit (0).
   */
  function ExtractRequest(e: Event): (r: PullRequest)
    requires IsPull(e)
    ensures r.url == e.requestUri && r.addrTuple == e.addrTuple && r.requestHeaders == e.requestHeaders
    ensures r.body == e.requestBody && r.httpMethod == e.httpMethod
    ensures e.UnitMethodInvokeInd? ==> r.sessionHeaders.None? && r.sessionId == -1 && r.clientSduSize == 0
    ensures e.MethodInvokeInd? ==>
      r.sessionHeaders == e.sessionHeaders && r.sessionId == e.sessionId && r.clientSduSize == e.clientSduSize
  {
    match e
    case MethodInvokeInd(_, sid, addr, m, uri, sh, rh, body, sdu) => PullRequest(sh, rh, uri, addr, sid, sdu, body, m)
    case UnitMethodInvokeInd(_, addr, m, uri, rh, body) => PullRequest(None, rh, uri, addr, -1, 0, body, m)
  }

  /** Session headers then request headers, combined, with hop-by-hop headers removed. */
  function MergedHeaders(req: PullRequest, http: HttpLib): Headers {
    var withSession := match req.sessionHeaders case Some(sh) => http.combine([], sh) case None => [];
    var withRequest := match req.requestHeaders case Some(rh) => http.combine(withSession, rh) case None => withSession;
    http.removeHopHeaders(withRequest)
  }

  /**
   * The client's headers as forwarded, and whether the request carried an
   * X-WAP.TOD header: every X-WAP.TOD header is taken out and only its
   * presence is remembered.
   */
  function ClientHeaders(req: PullRequest, http: HttpLib): (r: (Headers, bool))
    ensures r.0 == RemoveAll(MergedHeaders(req, http), XWapTod)
    ensures Count(r.0, XWapTod) == 0
    ensures r.1 <==> Count(MergedHeaders(req, http), XWapTod) > 0
    ensures |r.0| + Count(MergedHeaders(req, http), XWapTod) == |MergedHeaders(req, http)|
  {
    var split := SplitHeaderList(MergedHeaders(req, http), XWapTod);
    CountNoneCalled(split.1, XWapTod);
    (split.1, |split.0| > 0)
  }

  /**
   * add_charset_headers: "Accept-Charset: cs" for each supported charset,
   * in order, that the client does not accept yet; each test sees the
   * headers added before it. Nothing is added exactly when the client
   * already accepts every supported charset.
   */
  function AddCharsetHeaders(charsets: seq<string>, hs: Headers, accepted: (Headers, string) -> bool): (r: Headers)
    ensures |hs| <= |r| <= |hs| + |charsets| && r[..|hs|] == hs
    ensures forall j :: |hs| <= j < |r| ==> r[j].0 == AcceptCharset && r[j].1 in charsets
    ensures |r| == |hs| <==> forall c :: c in charsets ==> accepted(hs, c)
    decreases |charsets|
  {
    if charsets == [] then hs
    else
      var hs' := if !accepted(hs, charsets[0]) then hs + [(AcceptCharset, charsets[0])] else hs;
      assert forall c :: c in charsets[1..] ==> c in charsets;
      assert charsets == [charsets[0]] + charsets[1..];
      AddCharsetHeaders(charsets[1..], hs', accepted)
  }

  /**
   * Step i of add_charset_headers: the list after the first i + 1 charsets
   * is the list after the first i, plus "Accept-Charset: charsets[i]" when
   * the client does not accept charsets[i] on that list.
   */
  lemma AddCharsetStep(charsets: seq<string>, hs: Headers, accepted: (Headers, string) -> bool, i: int)
    requires 0 <= i < |charsets|
    ensures var before := AddCharsetHeaders(charsets[..i], hs, accepted);
      AddCharsetHeaders(charsets[..i + 1], hs, accepted) ==
      if accepted(before, charsets[i]) then before else before + [(AcceptCharset, charsets[i])]
  {
    assert charsets[..i + 1] == charsets[..i] + [charsets[i]];
    AddCharsetSnoc(charsets[..i], charsets[i], hs, accepted);
  }

  lemma {:induction false} AddCharsetSnoc(cs: seq<string>, c: string, hs: Headers, accepted: (Headers, string) -> bool)
    ensures var before := AddCharsetHeaders(cs, hs, accepted);
      AddCharsetHeaders(cs + [c], hs, accepted) ==
      if accepted(before, c) then before else before + [(AcceptCharset, c)]
    decreases |cs|
  {
    if cs == [] {
      assert [] + [c] == [c];
      assert [c][1..] == [];
    } else {
      var hs' := if !accepted(hs, cs[0]) then hs + [(AcceptCharset, cs[0])] else hs;
      assert (cs + [c])[0] == cs[0];
      assert (cs + [c])[1..] == cs[1..] + [c];
      AddCharsetSnoc(cs[1..], c, hs', accepted);
    }
  }

  /** An acceptance test that still accepts a charset once more headers are added. */
  ghost predicate KeepsAcceptance(accepted: (Headers, string) -> bool) {
    forall h: Headers, x: Header, c: string :: accepted(h, c) ==> accepted(h + [x], c)
  }

  /** An acceptance test that accepts a charset once "Accept-Charset: c" is on the list. */
  ghost predicate LearnsCharset(accepted: (Headers, string) -> bool) {
    forall h: Headers, c: string :: accepted(h + [(AcceptCharset, c)], c)
  }

  /**
   * For an acceptance test that reads the Accept-Charset headers the usual
   * way, the request leaves accepting every charset the WML compiler
   * supports, along with every charset it accepted already.
   */
  lemma {:induction false} CharsetsAllAccepted(charsets: seq<string>, hs: Headers, accepted: (Headers, string) -> bool)
    requires KeepsAcceptance(accepted) && LearnsCharset(accepted)
    ensures forall c :: c in charsets || accepted(hs, c) ==> accepted(AddCharsetHeaders(charsets, hs, accepted), c)
    decreases |charsets|
  {
    if charsets != [] {
      var hs' := if !accepted(hs, charsets[0]) then hs + [(AcceptCharset, charsets[0])] else hs;
      assert accepted(hs', charsets[0]);
      assert forall c :: accepted(hs, c) ==> accepted(hs', c);
      CharsetsAllAccepted(charsets[1..], hs', accepted);
      assert charsets == [charsets[0]] + charsets[1..];
    }
  }

  /** add_network_info: the peer's address, when there is one. */
  function NetworkInfo(addr: AddrTuple): Headers {
    if |addr.remoteAddress| > 0 then [(NetworkInfoName, addr.remoteAddress)] else []
  }

  /** add_client_sdu_size: the client's size limit, when it has one. */
  function ClientSduSize(sdu: int): Headers {
    if sdu > 0 then [(SduSizeName, LongToDecimal(sdu))] else []
  }

  /** add_via */
  function Via(gw: GatewayInfo): Header {
    (ViaName, "WAP/1.1 " + gw.officialName + " (" + GatewayName + "/" + gw.version + ")")
  }

  /** add_referer_url of the session's stored referer, for session requests. */
  function RefererHeader(sessionId: int, session: Option<SessionMachine>): Headers {
    if sessionId != -1 && session.Some? && session.value.refererUrl.Some? && |session.value.refererUrl.value| > 0
    then [(RefererName, session.value.refererUrl.value)]
    else []
  }

  /** add_kannel_version */
  function GatewayVersion(gw: GatewayInfo): Header {
    (GatewayHeaderName, GatewayName + "/" + gw.version)
  }

  /** add_session_id: the session id in decimal, for session requests. */
  function SessionIdHeader(sessionId: int): Headers {
    if sessionId != -1 then [(SessionIdName, LongToDecimal(sessionId))] else []
  }

  /** The headers the gateway appends after the Accept and Accept-Charset negotiation, in order. */
  function Synthesized(req: PullRequest, session: Option<SessionMachine>, gw: GatewayInfo): Headers {
    NetworkInfo(req.addrTuple) + ClientSduSize(req.clientSduSize) + [Via(gw)] +
    RefererHeader(req.sessionId, session) + [GatewayVersion(gw)] + SessionIdHeader(req.sessionId)
  }

  /**
   * The outgoing request headers and the X-WAP.TOD flag: the client's
   * headers, then Accept and Accept-Charset additions, then the synthesized
   * headers (cookies and header packing are not part of this model).
   */
  function BuildHeaders(req: PullRequest, session: Option<SessionMachine>, http: HttpLib, gw: GatewayInfo): (r: (Headers, bool))
    ensures r.1 == ClientHeaders(req, http).1
    ensures var base := ClientHeaders(req, http).0; |base| <= |r.0| && r.0[..|base|] == base
    ensures var s := Synthesized(req, session, gw); |s| <= |r.0| && r.0[|r.0| - |s|..] == s
    ensures var a := AddAcceptHeaders(ClientHeaders(req, http).0, http.typeAccepted);
      var s := Synthesized(req, session, gw);
      |a| + |s| <= |r.0| && r.0[..|a|] == a &&
      r.0[|a|..|r.0| - |s|] == AddCharsetHeaders(gw.charsets, a, http.charsetAccepted)[|a|..]
  {
    var (base, tod) := ClientHeaders(req, http);
    var negotiated := AddCharsetHeaders(gw.charsets, AddAcceptHeaders(base, http.typeAccepted), http.charsetAccepted);
    (negotiated + Synthesized(req, session, gw), tod)
  }

  /** The Accept and Accept-Charset additions add no header with any other name. */
  lemma NegotiationCount(base: Headers, http: HttpLib, gw: GatewayInfo, name: string)
    requires !CaseEq("Accept", name) && !CaseEq(AcceptCharset, name)
    ensures var n := AddCharsetHeaders(gw.charsets, AddAcceptHeaders(base, http.typeAccepted), http.charsetAccepted);
      Count(n, name) == Count(base, name)
  {
    var a := AddAcceptHeaders(base, http.typeAccepted);
    var n := AddCharsetHeaders(gw.charsets, a, http.charsetAccepted);
    assert n == base + a[|base|..] + n[|a|..] by {
      assert a == base + a[|base|..];
      assert n == a + n[|a|..];
    }
    CountAppend(base + a[|base|..], n[|a|..], name);
    CountAppend(base, a[|base|..], name);
    SplitNoneCalled(a[|base|..], name);
    SplitNoneCalled(n[|a|..], name);
  }

  /** Count over the built headers: the client's own plus the synthesized ones. */
  lemma BuiltCount(req: PullRequest, session: Option<SessionMachine>, http: HttpLib, gw: GatewayInfo, name: string)
    requires !CaseEq("Accept", name) && !CaseEq(AcceptCharset, name)
    ensures Count(BuildHeaders(req, session, http, gw).0, name)
         == Count(ClientHeaders(req, http).0, name) + Count(Synthesized(req, session, gw), name)
  {
    var base := ClientHeaders(req, http).0;
    var n := AddCharsetHeaders(gw.charsets, AddAcceptHeaders(base, http.typeAccepted), http.charsetAccepted);
    NegotiationCount(base, http, gw, name);
    CountAppend(n, Synthesized(req, session, gw), name);
  }

  /** Count over the synthesized headers, piece by piece. */
  lemma SynthesizedCount(req: PullRequest, session: Option<SessionMachine>, gw: GatewayInfo, name: string)
    ensures Count(Synthesized(req, session, gw), name)
         == Count(NetworkInfo(req.addrTuple), name) + Count(ClientSduSize(req.clientSduSize), name)
          + Count([Via(gw)], name) + Count(RefererHeader(req.sessionId, session), name)
          + Count([GatewayVersion(gw)], name) + Count(SessionIdHeader(req.sessionId), name)
  {
    var p1 := NetworkInfo(req.addrTuple);
    var p2 := ClientSduSize(req.clientSduSize);
    var p3 := [Via(gw)];
    var p4 := RefererHeader(req.sessionId, session);
    var p5 := [GatewayVersion(gw)];
    var p6 := SessionIdHeader(req.sessionId);
    CountAppend(p1, p2, name);
    CountAppend(p1 + p2, p3, name);
    CountAppend(p1 + p2 + p3, p4, name);
    CountAppend(p1 + p2 + p3 + p4, p5, name);
    CountAppend(p1 + p2 + p3 + p4 + p5, p6, name);
  }

  /** Count of a list of at most one header. */
  lemma CountOptional(hs: Headers, name: string)
    requires |hs| <= 1
    ensures Count(hs, name) == (if |hs| == 1 && IsCalled(hs[0], name) then 1 else 0)
  {
    if |hs| == 1 {
      assert hs == [hs[0]];
      CountSingle(hs[0], name);
    }
  }

  /** Names of different lengths never compare equal. */
  lemma LengthsDiffer(a: string, b: string)
    requires |a| != |b|
    ensures !CaseEq(a, b)
  {
  }

  /** The synthesized pieces and how they count under `name`. */
  lemma PiecesCount(req: PullRequest, session: Option<SessionMachine>, gw: GatewayInfo, name: string)
    ensures Count(NetworkInfo(req.addrTuple), name) == (if |req.addrTuple.remoteAddress| > 0 && CaseEq(NetworkInfoName, name) then 1 else 0)
    ensures Count(ClientSduSize(req.clientSduSize), name) == (if req.clientSduSize > 0 && CaseEq(SduSizeName, name) then 1 else 0)
    ensures Count([Via(gw)], name) == (if CaseEq(ViaName, name) then 1 else 0)
    ensures Count(RefererHeader(req.sessionId, session), name) ==
      (if |RefererHeader(req.sessionId, session)| == 1 && CaseEq(RefererName, name) then 1 else 0)
    ensures Count([GatewayVersion(gw)], name) == (if CaseEq(GatewayHeaderName, name) then 1 else 0)
    ensures Count(SessionIdHeader(req.sessionId), name) == (if req.sessionId != -1 && CaseEq(SessionIdName, name) then 1 else 0)
  {
    CountOptional(NetworkInfo(req.addrTuple), name);
    CountOptional(ClientSduSize(req.clientSduSize), name);
    CountOptional([Via(gw)], name);
    CountOptional(RefererHeader(req.sessionId, session), name);
    CountOptional([GatewayVersion(gw)], name);
    CountOptional(SessionIdHeader(req.sessionId), name);
  }

  /**
   * X-WAP-Session-ID is added exactly for session requests (session id not
   * -1), as the last header, and its value reads back as the session id.
   */
  lemma SessionIdHeaderIffSession(req: PullRequest, session: Option<SessionMachine>, http: HttpLib, gw: GatewayInfo)
    ensures var hs := BuildHeaders(req, session, http, gw).0;
      Count(hs, SessionIdName) == Count(ClientHeaders(req, http).0, SessionIdName) + (if req.sessionId != -1 then 1 else 0)
    ensures var hs := BuildHeaders(req, session, http, gw).0;
      req.sessionId != -1 ==> |hs| > 0 && hs[|hs| - 1].0 == SessionIdName && ParseLong(hs[|hs| - 1].1) == Some(req.sessionId)
  {
    var name := SessionIdName;
    LengthsDiffer("Accept", name);
    LengthsDiffer(AcceptCharset, name);
    BuiltCount(req, session, http, gw, name);
    SynthesizedCount(req, session, gw, name);
    PiecesCount(req, session, gw, name);
    LengthsDiffer(NetworkInfoName, name);
    LengthsDiffer(SduSizeName, name);
    LengthsDiffer(ViaName, name);
    LengthsDiffer(RefererName, name);
    LengthsDiffer(GatewayHeaderName, name);
    LongDecimalRoundTrip(req.sessionId);
  }

  /** X-WAP-Client-SDU-Size is added exactly when the client declared a positive limit, and reads back as it. */
  lemma SduSizeHeaderIffLimit(req: PullRequest, session: Option<SessionMachine>, http: HttpLib, gw: GatewayInfo)
    ensures Count(BuildHeaders(req, session, http, gw).0, SduSizeName)
         == Count(ClientHeaders(req, http).0, SduSizeName) + (if req.clientSduSize > 0 then 1 else 0)
    ensures req.clientSduSize > 0 ==> ParseLong(ClientSduSize(req.clientSduSize)[0].1) == Some(req.clientSduSize)
    ensures req.clientSduSize > 0 ==>
      (SduSizeName, LongToDecimal(req.clientSduSize)) in BuildHeaders(req, session, http, gw).0
  {
    SynthesizedIn(req, session, http, gw);
    var name := SduSizeName;
    LengthsDiffer("Accept", name);
    LengthsDiffer(AcceptCharset, name);
    BuiltCount(req, session, http, gw, name);
    SynthesizedCount(req, session, gw, name);
    PiecesCount(req, session, gw, name);
    LengthsDiffer(NetworkInfoName, name);
    LengthsDiffer(SessionIdName, name);
    LengthsDiffer(ViaName, name);
    LengthsDiffer(RefererName, name);
    LengthsDiffer(GatewayHeaderName, name);
    LongDecimalRoundTrip(req.clientSduSize);
  }

  /** X_Network_Info is added exactly when the peer address is non-empty, and it carries that address. */
  lemma NetworkInfoIffAddress(req: PullRequest, session: Option<SessionMachine>, http: HttpLib, gw: GatewayInfo)
    ensures Count(BuildHeaders(req, session, http, gw).0, NetworkInfoName)
         == Count(ClientHeaders(req, http).0, NetworkInfoName) + (if |req.addrTuple.remoteAddress| > 0 then 1 else 0)
    ensures |req.addrTuple.remoteAddress| > 0 ==>
      (NetworkInfoName, req.addrTuple.remoteAddress) in BuildHeaders(req, session, http, gw).0
  {
    SynthesizedIn(req, session, http, gw);
    var name := NetworkInfoName;
    LengthsDiffer("Accept", name);
    assert !CaseEq(AcceptCharset, name) by {
      assert ToLower(AcceptCharset[0]) != ToLower(name[0]);
    }
    BuiltCount(req, session, http, gw, name);
    SynthesizedCount(req, session, gw, name);
    PiecesCount(req, session, gw, name);
    LengthsDiffer(SduSizeName, name);
    LengthsDiffer(SessionIdName, name);
    LengthsDiffer(ViaName, name);
    LengthsDiffer(RefererName, name);
    LengthsDiffer(GatewayHeaderName, name);
  }

  /**
   * A Referer header is added exactly for a session request whose session
   * stored a non-empty referer, and it carries that referer.
   */
  lemma RefererIffStored(req: PullRequest, session: Option<SessionMachine>, http: HttpLib, gw: GatewayInfo)
    ensures Count(BuildHeaders(req, session, http, gw).0, RefererName)
         == Count(ClientHeaders(req, http).0, RefererName) +
            (if req.sessionId != -1 && session.Some? && session.value.refererUrl.Some?
                && |session.value.refererUrl.value| > 0 then 1 else 0)
    ensures req.sessionId != -1 && session.Some? && session.value.refererUrl.Some? && |session.value.refererUrl.value| > 0 ==>
      (RefererName, session.value.refererUrl.value) in BuildHeaders(req, session, http, gw).0
  {
    SynthesizedIn(req, session, http, gw);
    var name := RefererName;
    LengthsDiffer("Accept", name);
    LengthsDiffer(AcceptCharset, name);
    BuiltCount(req, session, http, gw, name);
    SynthesizedCount(req, session, gw, name);
    PiecesCount(req, session, gw, name);
    LengthsDiffer(NetworkInfoName, name);
    LengthsDiffer(SduSizeName, name);
    LengthsDiffer(SessionIdName, name);
    LengthsDiffer(ViaName, name);
    LengthsDiffer(GatewayHeaderName, name);
  }

  /** No X-WAP.TOD header is ever forwarded to the server. */
  lemma NoTodForwarded(req: PullRequest, session: Option<SessionMachine>, http: HttpLib, gw: GatewayInfo)
    ensures Count(BuildHeaders(req, session, http, gw).0, XWapTod) == 0
  {
    var name := XWapTod;
    LengthsDiffer("Accept", name);
    LengthsDiffer(AcceptCharset, name);
    BuiltCount(req, session, http, gw, name);
    SynthesizedCount(req, session, gw, name);
    PiecesCount(req, session, gw, name);
    LengthsDiffer(NetworkInfoName, name);
    LengthsDiffer(SduSizeName, name);
    LengthsDiffer(SessionIdName, name);
    LengthsDiffer(ViaName, name);
    LengthsDiffer(RefererName, name);
    LengthsDiffer(GatewayHeaderName, name);
  }

  /** Every forwarded request carries one Via and one X-WAP-Gateway header of the gateway's own, after the client's. */
  lemma GatewayAlwaysIdentified(req: PullRequest, session: Option<SessionMachine>, http: HttpLib, gw: GatewayInfo)
    ensures Count(BuildHeaders(req, session, http, gw).0, ViaName) == Count(ClientHeaders(req, http).0, ViaName) + 1
    ensures Count(BuildHeaders(req, session, http, gw).0, GatewayHeaderName)
         == Count(ClientHeaders(req, http).0, GatewayHeaderName) + 1
    ensures Via(gw) in BuildHeaders(req, session, http, gw).0 && GatewayVersion(gw) in BuildHeaders(req, session, http, gw).0
  {
    SynthesizedIn(req, session, http, gw);
    forall name | name in [ViaName, GatewayHeaderName]
      ensures Count(BuildHeaders(req, session, http, gw).0, name) == Count(ClientHeaders(req, http).0, name) + 1
    {
      LengthsDiffer("Accept", name);
      LengthsDiffer(AcceptCharset, name);
      BuiltCount(req, session, http, gw, name);
      SynthesizedCount(req, session, gw, name);
      PiecesCount(req, session, gw, name);
      LengthsDiffer(NetworkInfoName, name);
      LengthsDiffer(SduSizeName, name);
      LengthsDiffer(SessionIdName, name);
      LengthsDiffer(RefererName, name);
      LengthsDiffer(ViaName, GatewayHeaderName);
      LengthsDiffer(GatewayHeaderName, ViaName);
    }
  }

  /** Every synthesized header is in the built list. */
  lemma SynthesizedIn(req: PullRequest, session: Option<SessionMachine>, http: HttpLib, gw: GatewayInfo)
    ensures forall h :: h in Synthesized(req, session, gw) ==> h in BuildHeaders(req, session, http, gw).0
  {
  }

  // ---- routing ----

  /** The health-check pseudo-URL. */
  const MagicUrl := "kannel:alive"

  /** HEALTH_DECK: the WML deck returned for the health check. */
  const HealthDeck :=
    "<?xml version=\"1.0\"?>" +
    "<!DOCTYPE wml PUBLIC \"-//WAPFORUM//DTD 1.1//EN\" " +
    "\"http://www.wapforum.org/DTD/wml_1.1.xml\">" +
    "<wml><card id=\"health\"><p>Ok</p></card></wml>"

  predicate IsFetchMethod(m: string) {
    m == "GET" || m == "POST" || m == "HEAD"
  }

  /** How start_fetch treats a request, by method and (rewritten) URL. */
  datatype Route = HealthCheck | Forward(body: Option<string>) | NotImplemented

  /**
   * A GET of exactly "kannel:alive" is the health check; other GET, POST and
   * HEAD requests are forwarded, GET and HEAD without a body; any other
   * method is not implemented.
   */
  function RouteRequest(m: string, url: string, body: Option<string>): (r: Route)
    ensures r.HealthCheck? <==> m == "GET" && url == MagicUrl
    ensures r.NotImplemented? <==> !IsFetchMethod(m)
    ensures r.Forward? ==> r.body == (if m == "POST" then body else None)
  {
    if m == "GET" && url == MagicUrl then HealthCheck
    else if IsFetchMethod(m) then Forward(if m == "GET" || m == "HEAD" then None else body)
    else NotImplemented
  }

  /** struct request_data: what the reply needs of the request. */
  datatype RequestData = RequestData(clientSduSize: int, event: Event, sessionId: int, url: string, xWapTod: bool,
                                     requestHeaders: Headers)

  /** start_fetch's two ways out: a reply made at once, or an HTTP request. */
  datatype StartOutcome =
    | Immediate(status: int, responseHeaders: Headers, body: string, entry: RequestData)
    | HttpRequest(httpMethod: string, url: string, headers: Headers, requestBody: Option<string>, entry: RequestData)

  /**
   * start_fetch. `session` is find_session_machine_by_id of the request's
   * session id. Either outcome carries the same saved context; an immediate
   * reply goes through return_reply like a fetched one.
   */
  function StartFetch(e: Event, rules: seq<Rule>, session: Option<SessionMachine>, http: HttpLib, gw: GatewayInfo): (r: StartOutcome)
    requires IsPull(e) && ValidTable(rules)
    ensures r.entry.event == e && r.entry.url == MapUrl(rules, e.requestUri)
    ensures (r.entry.requestHeaders, r.entry.xWapTod) == BuildHeaders(ExtractRequest(e), session, http, gw)
    ensures Count(r.entry.requestHeaders, XWapTod) == 0
    ensures r.entry.xWapTod <==> Count(MergedHeaders(ExtractRequest(e), http), XWapTod) > 0
    ensures r.entry.sessionId == (if e.MethodInvokeInd? then e.sessionId else -1)
    ensures r.entry.clientSduSize == (if e.MethodInvokeInd? then e.clientSduSize else 0)
    ensures (r.Immediate? && r.status == HttpOk) <==> e.httpMethod == "GET" && MapUrl(rules, e.requestUri) == MagicUrl
    ensures r.Immediate? && r.status == HttpOk ==> r.body == HealthDeck && r.responseHeaders == [("Content-Type", Wml)]
    ensures (r.Immediate? && r.status == HttpNotImplemented) <==> !IsFetchMethod(e.httpMethod)
    ensures r.Immediate? && r.status == HttpNotImplemented ==> r.body == "" && r.responseHeaders == []
    ensures r.HttpRequest? <==>
      IsFetchMethod(e.httpMethod) && !(e.httpMethod == "GET" && MapUrl(rules, e.requestUri) == MagicUrl)
    ensures r.HttpRequest? ==> r.httpMethod == e.httpMethod && r.url == r.entry.url && r.headers == r.entry.requestHeaders
    ensures r.HttpRequest? ==> r.requestBody == (if e.httpMethod == "POST" then e.requestBody else None)
  {
    var req := ExtractRequest(e);
    var url := MapUrl(rules, req.url);
    var (headers, tod) := BuildHeaders(req, session, http, gw);
    NoTodForwarded(req, session, http, gw);
    var entry := RequestData(req.clientSduSize, e, req.sessionId, url, tod, headers);
    match RouteRequest(req.httpMethod, url, req.body)
    case HealthCheck => Immediate(HttpOk, [("Content-Type", Wml)], HealthDeck, entry)
    case Forward(body) => HttpRequest(req.httpMethod, url, headers, body, entry)
    case NotImplemented => Immediate(HttpNotImplemented, [], "", entry)
  }
}

=== FILE: headers.dfy ===
/**
 * HTTP header lists as the application layer manipulates them: an ordered
 * list of (name, value) pairs whose names compare case-insensitively, the
 * split of a list by header name, the decimal rendering of `long` values
 * that header synthesis uses, and the gwlib HTTP helpers the layer calls
 * (which are parameters of the model).
 */
module HttpHeaders {
  import opened Wrappers

  /** One header line: (name, value). */
  type Header = (string, string)
  type Headers = seq<Header>

  /** tolower() of the C locale: only ASCII capitals change. */
  function ToLower(c: char): char {
    if 'A' <= c <= 'Z' then (c as int + 32) as char else c
  }

  lemma ToLowerNul(c: char)
    ensures ToLower(c) == '\0' <==> c == '\0'
  {
  }

  /** Case-insensitive equality of two whole strings. */
  predicate CaseEq(a: string, b: string) {
    |a| == |b| && forall i :: 0 <= i < |a| ==> ToLower(a[i]) == ToLower(b[i])
  }

  /** A header is called `name` when the names agree ignoring case. */
  predicate IsCalled(h: Header, name: string) {
    CaseEq(h.0, name)
  }

  /**
   * split_header_list: all headers called `name` (http_header_find_all) and
   * the list without them (http_header_remove_all), both in list order.
   */
  function SplitHeaderList(hs: Headers, name: string): (r: (Headers, Headers))
    ensures forall h :: h in r.0 ==> IsCalled(h, name)
    ensures forall h :: h in r.1 ==> !IsCalled(h, name)
    ensures |r.0| + |r.1| == |hs|
  {
    if hs == [] then ([], [])
    else
      var rest := SplitHeaderList(hs[1..], name);
      assert hs == [hs[0]] + hs[1..];
      if IsCalled(hs[0], name) then ([hs[0]] + rest.0, rest.1)
      else (rest.0, [hs[0]] + rest.1)
  }

  /** The two halves of a split are, together, a rearrangement of the list. */
  lemma {:induction false} SplitIsPartition(hs: Headers, name: string)
    ensures multiset(SplitHeaderList(hs, name).0) + multiset(SplitHeaderList(hs, name).1) == multiset(hs)
  {
    if hs != [] {
      SplitIsPartition(hs[1..], name);
      assert hs == [hs[0]] + hs[1..];
    }
  }

  /** http_header_remove_all: the list without the headers called `name`. */
  function RemoveAll(hs: Headers, name: string): Headers {
    SplitHeaderList(hs, name).1
  }

  /** How many headers are called `name` (what http_header_remove_all returns). */
  function Count(hs: Headers, name: string): nat {
    |SplitHeaderList(hs, name).0|
  }

  /** Splitting a concatenation splits each part: both halves keep list order. */
  lemma {:induction false} SplitAppend(a: Headers, b: Headers, name: string)
    ensures SplitHeaderList(a + b, name).0 == SplitHeaderList(a, name).0 + SplitHeaderList(b, name).0
    ensures SplitHeaderList(a + b, name).1 == SplitHeaderList(a, name).1 + SplitHeaderList(b, name).1
  {
    if a == [] {
      assert a + b == b;
    } else {
      var ab := a + b;
      assert ab[0] == a[0];
      assert ab[1..] == a[1..] + b;
      SplitAppend(a[1..], b, name);
      var tail := SplitHeaderList(a[1..] + b, name);
      assert SplitHeaderList(ab, name) ==
        (if IsCalled(a[0], name) then ([a[0]] + tail.0, tail.1) else (tail.0, [a[0]] + tail.1));
      assert SplitHeaderList(a, name) ==
        (var ta := SplitHeaderList(a[1..], name);
         if IsCalled(a[0], name) then ([a[0]] + ta.0, ta.1) else (ta.0, [a[0]] + ta.1));
    }
  }

  lemma CountAppend(a: Headers, b: Headers, name: string)
    ensures Count(a + b, name) == Count(a, name) + Count(b, name)
  {
    SplitAppend(a, b, name);
  }

  lemma SplitSingle(h: Header, name: string)
    ensures SplitHeaderList([h], name) == if IsCalled(h, name) then ([h], []) else ([], [h])
  {
    assert [h][1..] == [];
    assert [h] + [] == [h];
  }

  lemma CountSingle(h: Header, name: string)
    ensures Count([h], name) == (if IsCalled(h, name) then 1 else 0)
  {
    assert [h][1..] == [];
  }

  /** A list none of whose headers is called `name` splits into nothing and itself. */
  lemma {:induction false} SplitNoneCalled(hs: Headers, name: string)
    requires forall i :: 0 <= i < |hs| ==> !IsCalled(hs[i], name)
    ensures SplitHeaderList(hs, name) == ([], hs)
  {
    if hs != [] {
      SplitNoneCalled(hs[1..], name);
      assert hs == [hs[0]] + hs[1..];
    }
  }

  /** A list whose every header avoids `name` counts none called `name`. */
  lemma CountNoneCalled(hs: Headers, name: string)
    requires forall h :: h in hs ==> !IsCalled(h, name)
    ensures Count(hs, name) == 0
  {
    SplitNoneCalled(hs, name);
  }

  /** Removing the headers called `name` leaves the count of any other name alone. */
  lemma {:induction false} RemoveAllKeepsOthers(hs: Headers, name: string, other: string)
    requires !CaseEq(other, name)
    ensures Count(RemoveAll(hs, name), other) == Count(hs, other)
  {
    if hs != [] {
      assert hs == [hs[0]] + hs[1..];
      RemoveAllKeepsOthers(hs[1..], name, other);
      SplitAppend([hs[0]], hs[1..], name);
      SplitAppend([hs[0]], hs[1..], other);
      CountAppend(RemoveAll([hs[0]], name), RemoveAll(hs[1..], name), other);
      CountSingle(hs[0], other);
      if IsCalled(hs[0], name) {
        assert RemoveAll([hs[0]], name) == [];
        assert !IsCalled(hs[0], other);
      } else {
        assert RemoveAll([hs[0]], name) == [hs[0]];
      }
    }
  }

  /** Removing the headers called `name` leaves the headers called any other name, in order. */
  lemma {:induction false} RemoveAllKeepsOthersSplit(hs: Headers, name: string, other: string)
    requires !CaseEq(other, name)
    ensures SplitHeaderList(RemoveAll(hs, name), other).0 == SplitHeaderList(hs, other).0
  {
    if hs != [] {
      assert hs == [hs[0]] + hs[1..];
      RemoveAllKeepsOthersSplit(hs[1..], name, other);
      SplitAppend([hs[0]], hs[1..], name);
      SplitAppend([hs[0]], hs[1..], other);
      SplitAppend(RemoveAll([hs[0]], name), RemoveAll(hs[1..], name), other);
      SplitSingle(hs[0], name);
      SplitSingle(hs[0], other);
      if IsCalled(hs[0], name) {
        assert !IsCalled(hs[0], other);
        assert RemoveAll([hs[0]], name) == [];
        assert SplitHeaderList([], other).0 == [];
      }
    }
  }

  /** A list whose only header called `name` is at j splits into that header and the others, in order. */
  lemma SplitOnlyAt(hs: Headers, name: string, j: int)
    requires 0 <= j < |hs| && IsCalled(hs[j], name)
    requires forall k :: 0 <= k < |hs| && k != j ==> !IsCalled(hs[k], name)
    ensures SplitHeaderList(hs, name) == ([hs[j]], hs[..j] + hs[j + 1..])
  {
    var before, after := hs[..j], hs[j + 1..];
    assert hs == before + [hs[j]] + after;
    NoneCalledSlice(hs, name, 0, j, j);
    NoneCalledSlice(hs, name, j + 1, |hs|, j);
    SplitNoneCalled(before, name);
    SplitNoneCalled(after, name);
    SplitSingle(hs[j], name);
    SplitAppend(before, [hs[j]], name);
    var left := SplitHeaderList(before + [hs[j]], name);
    assert left.0 == [] + [hs[j]] == [hs[j]];
    assert left.1 == before + [] == before;
    SplitAppend(before + [hs[j]], after, name);
    var whole := SplitHeaderList(hs, name);
    assert whole.0 == [hs[j]] + [] == [hs[j]];
    assert whole.1 == before + after;
  }

  /** A slice that avoids the only header called `name` holds none. */
  lemma NoneCalledSlice(hs: Headers, name: string, lo: int, hi: int, j: int)
    requires 0 <= lo <= hi <= |hs| && (j < lo || hi <= j)
    requires forall k :: 0 <= k < |hs| && k != j ==> !IsCalled(hs[k], name)
    ensures forall k :: 0 <= k < hi - lo ==> !IsCalled(hs[lo..hi][k], name)
  {
    forall k | 0 <= k < hi - lo
      ensures !IsCalled(hs[lo..hi][k], name)
    {
      assert hs[lo..hi][k] == hs[lo + k];
    }
  }

  /** A list holding a header called `name` at position j counts at least one. */
  lemma CountPositive(hs: Headers, name: string, j: int)
    requires 0 <= j < |hs| && IsCalled(hs[j], name)
    ensures Count(hs, name) >= 1
  {
    assert hs == hs[..j] + [hs[j]] + hs[j + 1..];
    CountAppend(hs[..j] + [hs[j]], hs[j + 1..], name);
    CountAppend(hs[..j], [hs[j]], name);
    CountSingle(hs[j], name);
  }

  /** The decimal digit for d. */
  function DigitChar(d: nat): (c: char)
    requires d < 10
    ensures '0' <= c <= '9'
  {
    ('0' as int + d) as char
  }

  predicate AllDigits(s: string) {
    forall i :: 0 <= i < |s| ==> '0' <= s[i] <= '9'
  }

  /** sprintf("%ld") of a non-negative value. */
  function NatToDecimal(n: nat): (s: string)
    ensures |s| > 0 && AllDigits(s)
    decreases n
  {
    if n < 10 then [DigitChar(n)] else NatToDecimal(n / 10) + [DigitChar(n % 10)]
  }

  /** The value of a string of decimal digits. */
  function DecimalValue(s: string): nat
    requires AllDigits(s)
  {
    if s == [] then 0 else DecimalValue(s[..|s| - 1]) * 10 + (s[|s| - 1] as int - '0' as int)
  }

  /** sprintf("%ld"): a minus sign for negative values, then the digits. */
  function LongToDecimal(n: int): string {
    if n < 0 then "-" + NatToDecimal(-n) else NatToDecimal(n)
  }

  /** Reads back a `%ld` rendering; None for anything that is not one. */
  function ParseLong(s: string): Option<int> {
    if |s| > 1 && s[0] == '-' && AllDigits(s[1..]) then Some(0 - DecimalValue(s[1..]) as int)
    else if |s| > 0 && AllDigits(s) then Some(DecimalValue(s))
    else None
  }

  lemma {:induction false} NatDecimalRoundTrip(n: nat)
    ensures DecimalValue(NatToDecimal(n)) == n
    decreases n
  {
    var s := NatToDecimal(n);
    if n >= 10 {
      NatDecimalRoundTrip(n / 10);
      assert s[..|s| - 1] == NatToDecimal(n / 10);
    }
  }

  /** The header value written for a `long` reads back as that value. */
  lemma LongDecimalRoundTrip(n: int)
    ensures ParseLong(LongToDecimal(n)) == Some(n)
  {
    var s := LongToDecimal(n);
    if n < 0 {
      var digits := NatToDecimal(-n);
      assert s[1..] == digits;
      assert |s| > 1 && s[0] == '-' && AllDigits(s[1..]);
      NatDecimalRoundTrip(-n);
      assert DecimalValue(s[1..]) == -n;
    } else {
      assert s[0] != '-';
      NatDecimalRoundTrip(n);
    }
  }

  /** HTTP status codes the layer produces. */
  const HttpOk := 200
  const HttpNotImplemented := 501
  const HttpBadGateway := 502

  /** http_status_class(status) == HTTP_STATUS_SUCCESSFUL: the 2xx class of RFC 2616 section 6.1.1. */
  predicate IsSuccessful(status: int) {
    200 <= status <= 299
  }

  /**
   * The gwlib HTTP helpers the layer calls. gwlib/http.c is not part of this
   * model, so each is a parameter:
   * combine = http_header_combine, removeHopHeaders = http_remove_hop_headers,
   * typeAccepted = http_type_accepted, charsetAccepted = http_charset_accepted,
   * contentType = http_header_get_content_type (type, charset),
   * markTransformation = http_header_mark_transformation (headers, new body, new type).
   */
  datatype HttpLib = HttpLib(
    combine: (Headers, Headers) -> Headers,
    removeHopHeaders: Headers -> Headers,
    typeAccepted: (Headers, string) -> bool,
    charsetAccepted: (Headers, string) -> bool,
    contentType: Headers -> (string, string),
    markTransformation: (Headers, string, string) -> Headers)
}

=== FILE: push.dfy ===
/**
 * The push over-the-air (OTA) indications: session events that concern
 * push are translated for the Push Proxy Gateway (PPG). On connect and
 * resume the client's headers are searched for Accept-Application and
 * Bearer-Indication (section 6.4.1 of WAP-189 PushOTA), which are decoded
 * into fields of their own and taken out of the forwarded headers.
 */
module Push {
  import opened Wrappers
  import opened HttpHeaders
  import opened Events

  const AcceptApplication := "Accept-Application"
  const BearerIndication := "Bearer-Indication"
  /** The application assumed when the client names none. */
  const DefaultApplication := "wml ua"

  /**
   * The application field of a push connection: decoded headers, or the
   * client's Accept-Application headers as received (their decoding is not
   * part of this model).
   */
  datatype AppHeaders = AppHeaders(headers: Headers) | UndecodedAppIds(raw: Headers)

  /** Events the layer sends to the PPG. */
  datatype PpgEvent =
    | PomConnectInd(addrTuple: AddrTuple, requestedCapabilities: seq<Capability>, acceptApplication: AppHeaders,
                    bearerIndication: Option<Headers>, pushHeaders: Option<Headers>, sessionId: int)
    | PomDisconnectInd(reasonCode: int, errorHeaders: Option<string>, errorBody: Option<string>, sessionHandle: int)
    | PomSuspendInd(reason: int, sessionId: int)
    | PomResumeInd(addrTuple: AddrTuple, bearerIndication: Option<Headers>, clientHeaders: Option<Headers>, sessionId: int)
    | PoConfirmedPushCnf(serverPushId: int, sessionHandle: int)
    | PoPushAbortInd(pushId: int, reason: int, sessionHandle: int)

  /** The session id an event for the PPG refers to. */
  function PpgSession(e: PpgEvent): int {
    match e
    case PomConnectInd(_, _, _, _, _, sid) => sid
    case PomDisconnectInd(_, _, _, handle) => handle
    case PomSuspendInd(_, sid) => sid
    case PomResumeInd(_, _, _, sid) => sid
    case PoConfirmedPushCnf(_, handle) => handle
    case PoPushAbortInd(_, _, handle) => handle
  }

  /**
   * check_application_headers, absent-or-empty case: the Accept-Application
   * headers are taken out of the list, and when there are none (or no list)
   * the default "wml ua" application is assumed.
   */
  function CheckApplicationHeaders(hs: Option<Headers>): (r: (Option<Headers>, AppHeaders))
    ensures r.0.Some? <==> hs.Some?
    ensures hs.Some? ==> r.0.value == RemoveAll(hs.value, AcceptApplication)
    ensures r.0.Some? ==> Count(r.0.value, AcceptApplication) == 0
    ensures r.1 == AppHeaders([(AcceptApplication, DefaultApplication)]) <==>
      hs.None? || Count(hs.value, AcceptApplication) == 0
    ensures r.1.UndecodedAppIds? ==> forall h :: h in r.1.raw ==> IsCalled(h, AcceptApplication)
    ensures hs.Some? && Count(hs.value, AcceptApplication) > 0 ==>
      r.1 == UndecodedAppIds(SplitHeaderList(hs.value, AcceptApplication).0)
  {
    match hs
    case None => (None, AppHeaders([(AcceptApplication, DefaultApplication)]))
    case Some(h) =>
      var split := SplitHeaderList(h, AcceptApplication);
      CountNoneCalled(split.1, AcceptApplication);
      if |split.0| == 0 then (Some(split.1), AppHeaders([(AcceptApplication, DefaultApplication)]))
      else (Some(split.1), UndecodedAppIds(split.0))
  }

  /** octstr_get_char: the character at i, or -1 past the end. */
  function OctstrGetChar(v: string, i: int): (r: int)
    ensures 0 <= i < |v| ==> r == v[i] as int
    ensures !(0 <= i < |v|) ==> r == -1
  {
    if 0 <= i < |v| then v[i] as int else -1
  }

  /** The first octet of a value as an unsigned char: an empty value reads as 0xff. */
  function FirstOctet(v: string): (r: int)
    ensures 0 <= r < 256
    ensures |v| == 0 ==> r == 255
    ensures |v| > 0 && v[0] as int < 256 ==> r == v[0] as int
  {
    OctstrGetChar(v, 0) % 256
  }

  /** wsp_bearer_indication_to_cstr: the name of a bearer type code, if it has one. */
  type BearerNames = int -> Option<string>

  /**
   * decode_bearer_indication: all Bearer-Indication headers leave the list;
   * exactly one whose first octet is a non-zero code with a name yields one
   * "Bearer-Indication: <name>" header, anything else yields none. On an
   * illegal value the intended "no header" is modelled.
   */
  function DecodeBearerIndication(hs: Option<Headers>, names: BearerNames): (r: (Option<Headers>, Headers))
    ensures r.0.Some? <==> hs.Some?
    ensures hs.Some? ==> r.0.value == RemoveAll(hs.value, BearerIndication)
    ensures r.0.Some? ==> Count(r.0.value, BearerIndication) == 0
    ensures |r.1| <= 1
    ensures |r.1| == 1 ==> hs.Some? && Count(hs.value, BearerIndication) == 1 && r.1[0].0 == BearerIndication
  {
    match hs
    case None => (None, [])
    case Some(h) =>
      var split := SplitHeaderList(h, BearerIndication);
      CountNoneCalled(split.1, BearerIndication);
      if |split.0| != 1 then (Some(split.1), [])
      else
        var code := FirstOctet(split.0[0].1);
        var name := names(code);
        if name.Some? && code != 0 then (Some(split.1), [(BearerIndication, name.value)])
        else (Some(split.1), [])
  }

  /** Without a Bearer-Indication header the list passes unchanged and no bearer is indicated. */
  lemma BearerAbsent(hs: Headers, names: BearerNames)
    requires forall i :: 0 <= i < |hs| ==> !IsCalled(hs[i], BearerIndication)
    ensures DecodeBearerIndication(Some(hs), names) == (Some(hs), [])
  {
    SplitNoneCalled(hs, BearerIndication);
  }

  /**
   * With exactly one Bearer-Indication header, at j, the list loses just
   * that header, and its first octet decides the bearer: a non-zero code
   * with a name is indicated, any other value is dropped.
   */
  lemma BearerSingle(hs: Headers, names: BearerNames, j: int)
    requires 0 <= j < |hs| && IsCalled(hs[j], BearerIndication)
    requires forall k :: 0 <= k < |hs| && k != j ==> !IsCalled(hs[k], BearerIndication)
    ensures var code := FirstOctet(hs[j].1);
      DecodeBearerIndication(Some(hs), names) ==
      (Some(hs[..j] + hs[j + 1..]),
       if code != 0 && names(code).Some? then [(BearerIndication, names(code).value)] else [])
  {
    SplitOnlyAt(hs, BearerIndication, j);
  }

  /** Two Bearer-Indication headers, at j and k, mean no bearer is indicated at all. */
  lemma BearerDuplicate(hs: Headers, names: BearerNames, j: int, k: int)
    requires 0 <= j < k < |hs| && IsCalled(hs[j], BearerIndication) && IsCalled(hs[k], BearerIndication)
    ensures DecodeBearerIndication(Some(hs), names).1 == []
    ensures DecodeBearerIndication(Some(hs), names).0 == Some(RemoveAll(hs, BearerIndication))
  {
    CountDuplicate(hs, BearerIndication, j, k);
  }

  /**
   * indicate_push_connection: the connect indication for the PPG, with the
   * application and bearer decoded and both kinds of header taken out of
   * the forwarded push headers; an empty bearer list becomes no field.
   */
  function IndicatePushConnection(e: Event, names: BearerNames): (r: PpgEvent)
    requires e.ConnectInd?
    ensures r.PomConnectInd? && r.addrTuple == e.addrTuple && r.requestedCapabilities == e.requestedCapabilities
    ensures r.sessionId == e.sessionId
    ensures r.pushHeaders.Some? <==> e.clientHeaders.Some?
    ensures r.pushHeaders.Some? ==>
      Count(r.pushHeaders.value, AcceptApplication) == 0 && Count(r.pushHeaders.value, BearerIndication) == 0
    ensures r.acceptApplication == CheckApplicationHeaders(e.clientHeaders).1
    ensures var (hs, bearer) := DecodeBearerIndication(CheckApplicationHeaders(e.clientHeaders).0, names);
      r.pushHeaders == hs && r.bearerIndication == (if bearer == [] then None else Some(bearer))
    ensures e.clientHeaders.Some? ==>
      r.pushHeaders == Some(RemoveAll(RemoveAll(e.clientHeaders.value, AcceptApplication), BearerIndication))
    ensures r.bearerIndication.Some? ==>
      e.clientHeaders.Some? && Count(e.clientHeaders.value, BearerIndication) == 1 &&
      |r.bearerIndication.value| == 1 && r.bearerIndication.value[0].0 == BearerIndication
  {
    var (hs1, app) := CheckApplicationHeaders(e.clientHeaders);
    var (hs2, bearer) := DecodeBearerIndication(hs1, names);
    BearerRemovalKeepsOthers(hs1, AcceptApplication);
    AppRemovalKeepsBearers(e.clientHeaders);
    PomConnectInd(e.addrTuple, e.requestedCapabilities, app, if bearer == [] then None else Some(bearer), hs2, e.sessionId)
  }

  /**
   * indicate_push_resume: the resume indication for the PPG, with the
   * bearer decoded out of the client headers.
   */
  function IndicatePushResume(e: Event, names: BearerNames): (r: PpgEvent)
    requires e.ResumeInd?
    ensures r.PomResumeInd? && r.addrTuple == e.addrTuple && r.sessionId == e.sessionId
    ensures r.clientHeaders.Some? <==> e.clientHeaders.Some?
    ensures r.clientHeaders.Some? ==> r.clientHeaders.value == RemoveAll(e.clientHeaders.value, BearerIndication)
    ensures var (hs, bearer) := DecodeBearerIndication(e.clientHeaders, names);
      r.clientHeaders == hs && r.bearerIndication == (if bearer == [] then None else Some(bearer))
    ensures r.bearerIndication.Some? ==>
      e.clientHeaders.Some? && Count(e.clientHeaders.value, BearerIndication) == 1 &&
      |r.bearerIndication.value| == 1 && r.bearerIndication.value[0].0 == BearerIndication
  {
    var (hs, bearer) := DecodeBearerIndication(e.clientHeaders, names);
    PomResumeInd(e.addrTuple, if bearer == [] then None else Some(bearer), hs, e.sessionId)
  }

  /** Taking the Bearer-Indication headers out leaves every other name's count alone. */
  lemma BearerRemovalKeepsOthers(hs: Option<Headers>, other: string)
    requires !CaseEq(other, BearerIndication)
    ensures hs.Some? ==> Count(RemoveAll(hs.value, BearerIndication), other) == Count(hs.value, other)
  {
    if hs.Some? {
      RemoveAllKeepsOthers(hs.value, BearerIndication, other);
    }
  }

  /** Taking the Accept-Application headers out leaves the Bearer-Indication count alone. */
  lemma AppRemovalKeepsBearers(hs: Option<Headers>)
    ensures hs.Some? ==> Count(RemoveAll(hs.value, AcceptApplication), BearerIndication) == Count(hs.value, BearerIndication)
  {
    if hs.Some? {
      assert !CaseEq(BearerIndication, AcceptApplication);
      RemoveAllKeepsOthers(hs.value, AcceptApplication, BearerIndication);
    }
  }

  /** A connecting client that names no application is assumed to want "wml ua". */
  lemma MissingApplicationDefaults(e: Event, names: BearerNames)
    requires e.ConnectInd? && e.clientHeaders.Some?
    requires forall i :: 0 <= i < |e.clientHeaders.value| ==> !IsCalled(e.clientHeaders.value[i], AcceptApplication)
    ensures IndicatePushConnection(e, names).acceptApplication == AppHeaders([(AcceptApplication, DefaultApplication)])
    ensures IndicatePushConnection(e, names).pushHeaders == DecodeBearerIndication(e.clientHeaders, names).0
  {
    SplitNoneCalled(e.clientHeaders.value, AcceptApplication);
  }

  /**
   * A connecting client with exactly one Bearer-Indication header, at j,
   * whose first octet is a non-zero code with a name, has that bearer
   * passed on to the PPG under its name.
   */
  lemma ConnectBearerSingle(e: Event, names: BearerNames, j: int)
    requires e.ConnectInd? && e.clientHeaders.Some?
    requires var hs := e.clientHeaders.value;
      0 <= j < |hs| && IsCalled(hs[j], BearerIndication) &&
      forall k :: 0 <= k < |hs| && k != j ==> !IsCalled(hs[k], BearerIndication)
    requires var code := FirstOctet(e.clientHeaders.value[j].1); code != 0 && names(code).Some?
    ensures IndicatePushConnection(e, names).bearerIndication ==
      Some([(BearerIndication, names(FirstOctet(e.clientHeaders.value[j].1)).value)])
  {
    var hs := e.clientHeaders.value;
    assert !CaseEq(BearerIndication, AcceptApplication);
    SplitOnlyAt(hs, BearerIndication, j);
    RemoveAllKeepsOthersSplit(hs, AcceptApplication, BearerIndication);
  }

  /** A connecting client that sends two bearer indications gets none passed on. */
  lemma DuplicateBearerDropped(e: Event, names: BearerNames, j: int, k: int)
    requires e.ConnectInd? && e.clientHeaders.Some?
    requires var hs := e.clientHeaders.value;
      0 <= j < k < |hs| && IsCalled(hs[j], BearerIndication) && IsCalled(hs[k], BearerIndication)
    ensures IndicatePushConnection(e, names).bearerIndication.None?
  {
    var hs := e.clientHeaders.value;
    var rest := RemoveAll(hs, AcceptApplication);
    assert !CaseEq(BearerIndication, AcceptApplication);
    RemoveAllKeepsOthers(hs, AcceptApplication, BearerIndication);
    CountDuplicate(hs, BearerIndication, j, k);
  }

  /** Two headers called `name` count at least two. */
  lemma CountDuplicate(hs: Headers, name: string, j: int, k: int)
    requires 0 <= j < k < |hs| && IsCalled(hs[j], name) && IsCalled(hs[k], name)
    ensures Count(hs, name) >= 2
  {
    assert hs == hs[..k] + hs[k..];
    CountAppend(hs[..k], hs[k..], name);
    assert hs[..k][j] == hs[j];
    CountPositive(hs[..k], name, j);
    assert hs[k..][0] == hs[k];
    CountPositive(hs[k..], name, 0);
  }

  /** indicate_push_disconnect */
  function IndicatePushDisconnect(e: Event): PpgEvent
    requires e.DisconnectInd?
  {
    PomDisconnectInd(e.reasonCode, e.errorHeaders, e.errorBody, e.sessionHandle)
  }

  /** indicate_push_suspend */
  function IndicatePushSuspend(e: Event): PpgEvent
    requires e.SuspendInd?
  {
    PomSuspendInd(e.reason, e.sessionId)
  }

  /** confirm_push: acknowledgement headers are not passed on. */
  function ConfirmPush(e: Event): PpgEvent
    requires e.ConfirmedPushCnf?
  {
    PoConfirmedPushCnf(e.serverPushId, e.sessionId)
  }

  /** indicate_push_abort */
  function IndicatePushAbort(e: Event): PpgEvent
    requires e.PushAbortInd?
  {
    PoPushAbortInd(e.pushId, e.reason, e.sessionId)
  }

  /** response_push_connection: the PPG's connect response, for the WSP session; server headers are not used. */
  function ResponsePushConnection(e: Event): WspEvent
    requires e.PomConnectRes?
  {
    ConnectRes(e.sessionId, e.negotiatedCapabilities)
  }
}

=== FILE: reply.dfy ===
/**
 * return_reply: turning an HTTP result (or a transport failure) into the
 * WSP result event. The content is converted for the phone, the response
 * headers are cleaned, and two guards protect the client: error pages of a
 * type it does not accept are emptied, and bodies larger than its SDU
 * limit are suppressed.
 */
module Reply {
  import opened Wrappers
  import opened HttpHeaders
  import opened Events
  import opened Converters
  import opened Fetch

  const TextPlain := "text/plain"

  /**
   * What return_reply consults besides its arguments: the smart-errors and
   * device-home settings, the error-deck builders (error_requesting_back,
   * error_requesting), the gwlib helpers, the compilers, and the formatted
   * gateway time for X-WAP.TOD (None when date formatting fails).
   */
  datatype ReplyEnv = ReplyEnv(smartErrors: bool, deviceHome: Option<string>,
                               errorRequestingBack: (string, string) -> string,
                               errorRequesting: string -> string,
                               http: HttpLib, compilers: Compilers, gatewayTime: Option<string>)

  /** Where a smart error deck sends the user back to: the session referer, else device-home, else nowhere. */
  function BackTarget(referer: Option<string>, deviceHome: Option<string>): (r: Option<string>)
    ensures r.None? <==> referer.None? && deviceHome.None?
    ensures referer.Some? ==> r == referer
    ensures referer.None? ==> r == deviceHome
  {
    if referer.Some? then referer else deviceHome
  }

  /**
   * The transport-failure policy (a negative status): with smart errors,
   * 200 and a WML error deck leading back to BackTarget; without, 502 with
   * an empty text/plain body. The charset is empty either way.
   */
  function FailureContent(url: string, referer: Option<string>, env: ReplyEnv): (r: (int, Content))
    ensures r.1.url == url && r.1.charset == ""
    ensures env.smartErrors ==> r.0 == HttpOk && r.1.contentType == Wml
    ensures env.smartErrors ==>
      (r.1.body == match BackTarget(referer, env.deviceHome)
                   case Some(target) => env.errorRequestingBack(url, target)
                   case None => env.errorRequesting(url))
    ensures !env.smartErrors ==> r.0 == HttpBadGateway && r.1.contentType == TextPlain && r.1.body == ""
  {
    if env.smartErrors then
      var deck :=
        if referer.Some? then env.errorRequestingBack(url, referer.value)
        else if env.deviceHome.Some? then env.errorRequestingBack(url, env.deviceHome.value)
        else env.errorRequesting(url);
      (HttpOk, Content(deck, Wml, "", url))
    else
      (HttpBadGateway, Content("", TextPlain, "", url))
  }

  /** Status, content and headers once the failure policy and conversion are done, before header cleaning. */
  datatype Prepared = Prepared(status: int, content: Content, headers: Headers, converted: bool)

  /**
   * The first half of return_reply. A failure without smart errors is not
   * converted; a smart error deck and every real response go through
   * convert_content, and a converted body has its headers re-marked. A
   * missing body is converted as the empty one.
   */
  function Prepare(status: int, body: Option<string>, headers: Option<Headers>, url: string,
                   referer: Option<string>, env: ReplyEnv): (r: Prepared)
    ensures status < 0 && !env.smartErrors ==> r.status == HttpBadGateway && r.content.body == "" && !r.converted
    ensures status < 0 && env.smartErrors ==> r.status == HttpOk
    ensures status >= 0 ==> r.status == status
    ensures status >= 0 && !r.converted ==>
      r.content.body == body.GetOr("") &&
      (r.content.contentType, r.content.charset) == env.http.contentType(headers.GetOr([]))
    ensures r.converted ==> r.headers == env.http.markTransformation(headers.GetOr([]), r.content.body, r.content.contentType)
    ensures !r.converted ==> r.headers == headers.GetOr([])
    ensures status >= 0 ==>
      var (ct, cs) := env.http.contentType(headers.GetOr([]));
      var (outcome, c) := ConvertContent(Registry, Content(body.GetOr(""), ct, cs, url), env.compilers);
      r.converted == (outcome == Converted) && r.content == c
    ensures status < 0 && env.smartErrors ==>
      var (outcome, c) := ConvertContent(Registry, FailureContent(url, referer, env).1, env.compilers);
      r.converted == (outcome == Converted) && r.content == c
    ensures status < 0 && !env.smartErrors ==> r.content == FailureContent(url, referer, env).1
  {
    var hs := headers.GetOr([]);
    if status < 0 && !env.smartErrors then
      var (st, c) := FailureContent(url, referer, env);
      Prepared(st, c, hs, false)
    else
      var (st, c) :=
        if status < 0 then FailureContent(url, referer, env)
        else
          var (ct, cs) := env.http.contentType(hs);
          (status, Content(body.GetOr(""), ct, cs, url));
      var (outcome, c') := ConvertContent(Registry, c, env.compilers);
      if outcome == Converted then Prepared(st, c', env.http.markTransformation(hs, c'.body, c'.contentType), true)
      else Prepared(st, c', hs, false)
  }

  /**
   * Response header cleaning: hop-by-hop headers go, every X-WAP.TOD from
   * the server goes, and the gateway's own X-WAP.TOD is added when the
   * client sent one and the gateway time could be formatted.
   */
  function CleanHeaders(hs: Headers, xWapTod: bool, env: ReplyEnv): (r: Headers)
    ensures Count(r, XWapTod) == (if xWapTod && env.gatewayTime.Some? then 1 else 0)
    ensures xWapTod && env.gatewayTime.Some? ==> r[|r| - 1] == (XWapTod, env.gatewayTime.value)
    ensures forall name :: !CaseEq(name, XWapTod) ==> Count(r, name) == Count(env.http.removeHopHeaders(hs), name)
    ensures forall name :: !CaseEq(name, XWapTod) ==>
      SplitHeaderList(r, name).0 == SplitHeaderList(env.http.removeHopHeaders(hs), name).0
  {
    var hop := env.http.removeHopHeaders(hs);
    var kept := RemoveAll(hop, XWapTod);
    CountNoneCalled(kept, XWapTod);
    forall name | !CaseEq(name, XWapTod)
      ensures SplitHeaderList(kept, name).0 == SplitHeaderList(hop, name).0
    {
      RemoveAllKeepsOthersSplit(hop, XWapTod, name);
    }
    if xWapTod && env.gatewayTime.Some? then
      var added := (XWapTod, env.gatewayTime.value);
      CountAppend(kept, [added], XWapTod);
      CountSingle(added, XWapTod);
      forall name | !CaseEq(name, XWapTod)
        ensures SplitHeaderList(kept + [added], name).0 == SplitHeaderList(hop, name).0
      {
        SplitAppend(kept, [added], name);
        SplitSingle(added, name);
        assert !IsCalled(added, name);
      }
      kept + [added]
    else
      kept
  }

  /** Status, type and body as the client will get them. */
  datatype Guarded = Guarded(status: int, contentType: string, body: string)

  /** The compatibility guard fires: an error status with a type the client does not accept. */
  predicate Incompatible(status: int, contentType: string, requestHeaders: Headers, http: HttpLib) {
    !IsSuccessful(status) && !http.typeAccepted(requestHeaders, contentType)
  }

  /** The size guard fires: a positive SDU limit that the body exceeds. */
  predicate TooLarge(body: string, sdu: int) {
    |body| > sdu && sdu > 0
  }

  /** Client-compatibility guard: such a body is replaced by an empty text/plain one. */
  function CompatGuard(g: Guarded, requestHeaders: Headers, http: HttpLib): (r: Guarded)
    ensures r.status == g.status
    ensures Incompatible(g.status, g.contentType, requestHeaders, http) ==> r.body == "" && r.contentType == TextPlain
    ensures !Incompatible(g.status, g.contentType, requestHeaders, http) ==> r == g
  {
    if Incompatible(g.status, g.contentType, requestHeaders, http) then g.(body := "", contentType := TextPlain) else g
  }

  /** SDU guard: an oversized body is dropped; a success status then becomes 502, an error status stays. */
  function SizeGuard(g: Guarded, sdu: int): (r: Guarded)
    ensures r.contentType == g.contentType
    ensures TooLarge(g.body, sdu) ==> r.body == "" && r.status == (if IsSuccessful(g.status) then HttpBadGateway else g.status)
    ensures !TooLarge(g.body, sdu) ==> r == g
  {
    if TooLarge(g.body, sdu) then
      Guarded(if IsSuccessful(g.status) then HttpBadGateway else g.status, g.contentType, "")
    else g
  }

  /**
   * Both guards, compatibility first. Whatever came in, the body fits a
   * positive SDU limit; a status changes only from success-class to 502;
   * an oversized body never leaves under a success status, while an error
   * status survives (the server's error tells the client more than the
   * gateway's 502); an error page the client cannot read arrives empty as
   * text/plain; a fitting success-class result passes untouched.
   */
  function ApplyGuards(g: Guarded, sdu: int, requestHeaders: Headers, http: HttpLib): (r: Guarded)
    ensures sdu > 0 ==> |r.body| <= sdu
    ensures r.status == g.status || (IsSuccessful(g.status) && r.status == HttpBadGateway)
    ensures TooLarge(g.body, sdu) ==>
      r.body == "" && !IsSuccessful(r.status) && r.status == (if IsSuccessful(g.status) then HttpBadGateway else g.status)
    ensures Incompatible(g.status, g.contentType, requestHeaders, http) ==> r == Guarded(g.status, TextPlain, "")
    ensures IsSuccessful(g.status) && !TooLarge(g.body, sdu) ==> r == g
    ensures !Incompatible(g.status, g.contentType, requestHeaders, http) ==> r.contentType == g.contentType
    ensures !Incompatible(g.status, g.contentType, requestHeaders, http) && !TooLarge(g.body, sdu) ==> r == g
    ensures IsSuccessful(r.status) ==> r == g
  {
    SizeGuard(CompatGuard(g, requestHeaders, http), sdu)
  }

  /** A 200 reply of 200 bytes to a client with a 100-byte limit becomes an empty 502. */
  lemma OversizeScenario(body: string, requestHeaders: Headers, http: HttpLib)
    requires |body| == 200
    ensures ApplyGuards(Guarded(HttpOk, Wmlc, body), 100, requestHeaders, http) == Guarded(HttpBadGateway, Wmlc, "")
  {
  }

  /** The reply event and the referer the session is to remember, if any. */
  datatype ReplyOut = ReplyOut(reply: WspEvent, setReferer: Option<string>)

  /**
   * return_reply. `session` is find_session_machine_by_id of the saved
   * session id; `status`, `body` and `headers` are what the HTTP client
   * delivered (a negative status for a transport failure).
   */
  function ReturnReply(status: int, body: Option<string>, headers: Option<Headers>, entry: RequestData,
                       session: Option<SessionMachine>, env: ReplyEnv): (r: ReplyOut)
    requires IsPull(entry.event)
    ensures entry.event.MethodInvokeInd? ==>
      r.reply.MethodResultReq? && r.reply.serverTransactionId == entry.event.serverTransactionId &&
      r.reply.sessionId == entry.sessionId
    ensures entry.event.UnitMethodInvokeInd? ==>
      r.reply.UnitMethodResultReq? && r.reply.addrTuple == entry.event.addrTuple &&
      r.reply.transactionId == entry.event.transactionId
    ensures entry.clientSduSize > 0 ==> |r.reply.responseBody| <= entry.clientSduSize
    ensures status >= 0 ==>
      r.reply.status == status || (IsSuccessful(status) && r.reply.status == HttpBadGateway)
    ensures status < 0 && !env.smartErrors ==> r.reply.status == HttpBadGateway && r.reply.responseBody == ""
    ensures status < 0 && env.smartErrors ==> r.reply.status in {HttpOk, HttpBadGateway}
    ensures var p := Prepare(status, body, headers, entry.url, SessionReferer(session), env);
      var g := ApplyGuards(Guarded(p.status, p.content.contentType, p.content.body), entry.clientSduSize,
                           entry.requestHeaders, env.http);
      r.reply.status == g.status && r.reply.responseBody == g.body
    ensures var p := Prepare(status, body, headers, entry.url, SessionReferer(session), env);
      (!Incompatible(p.status, p.content.contentType, entry.requestHeaders, env.http) &&
       !TooLarge(p.content.body, entry.clientSduSize)) ==>
      r.reply.responseHeaders == CleanHeaders(p.headers, entry.xWapTod, env)
    ensures r.setReferer.Some? <==>
      status >= 0 && Prepare(status, body, headers, entry.url, SessionReferer(session), env).converted &&
      entry.sessionId != -1 && session.Some?
    ensures r.setReferer.Some? ==> r.setReferer == Some(entry.url)
  {
    var referer := SessionReferer(session);
    var p := Prepare(status, body, headers, entry.url, referer, env);
    var hs := CleanHeaders(p.headers, entry.xWapTod, env);
    var g0 := Guarded(p.status, p.content.contentType, p.content.body);
    var g1 := CompatGuard(g0, entry.requestHeaders, env.http);
    var hs1 := if Incompatible(g0.status, g0.contentType, entry.requestHeaders, env.http)
               then env.http.markTransformation(hs, g1.body, g1.contentType) else hs;
    var g2 := ApplyGuards(g0, entry.clientSduSize, entry.requestHeaders, env.http);
    var hs2 := if TooLarge(g1.body, entry.clientSduSize) then env.http.markTransformation(hs1, g2.body, g2.contentType) else hs1;
    var setReferer := if status >= 0 && p.converted && entry.sessionId != -1 && session.Some? then Some(entry.url) else None;
    var reply :=
      match entry.event
      case MethodInvokeInd(tid, _, _, _, _, _, _, _, _) => MethodResultReq(tid, g2.status, hs2, g2.body, entry.sessionId)
      case UnitMethodInvokeInd(tid, addr, _, _, _, _) => UnitMethodResultReq(addr, tid, g2.status, hs2, g2.body);
    ReplyOut(reply, setReferer)
  }

  /** The session referer as get_referer_url reads it (None when there is no session). */
  function SessionReferer(session: Option<SessionMachine>): Option<string> {
    if session.Some? then session.value.refererUrl else None
  }

  /**
   * The health check's reply: start_fetch answers a GET of "kannel:alive"
   * with status 200, a WML Content-Type header and the health deck
   * (StartFetch), and that reply reaches the client as 200 with the
   * compiled deck when the deck compiles and fits.
   */
  lemma HealthCheckReply(entry: RequestData, sm: Option<SessionMachine>, env: ReplyEnv, charset: string, compiled: string)
    requires IsPull(entry.event)
    requires env.http.contentType([("Content-Type", Wml)]) == (Wml, charset)
    requires env.compilers.wml(HealthDeck, charset) == Some(compiled)
    requires entry.clientSduSize <= 0 || |compiled| <= entry.clientSduSize
    ensures var out := ReturnReply(HttpOk, Some(HealthDeck), Some([("Content-Type", Wml)]), entry, sm, env);
      out.reply.status == HttpOk && out.reply.responseBody == compiled
  {
  }

  /**
   * A success-class reply of a type no converter handles, whose body fits
   * the client's limit, reaches the client unchanged: same status, same
   * body, the server's headers cleaned, and no referer is remembered.
   */
  lemma UnconvertedSuccessArrives(status: int, body: Option<string>, headers: Option<Headers>, entry: RequestData,
                                  sm: Option<SessionMachine>, env: ReplyEnv)
    requires IsPull(entry.event) && IsSuccessful(status)
    requires var ct := env.http.contentType(headers.GetOr([])).0; ct != Wml && ct != WmlScript
    requires !TooLarge(body.GetOr(""), entry.clientSduSize)
    ensures var out := ReturnReply(status, body, headers, entry, sm, env);
      out.reply.status == status && out.reply.responseBody == body.GetOr("") && out.setReferer.None? &&
      out.reply.responseHeaders == CleanHeaders(headers.GetOr([]), entry.xWapTod, env)
  {
  }

  /**
   * An error reply the client can read (its type is accepted) and whose
   * body fits the client's limit reaches the client as the server sent it:
   * same status, same body, same type.
   */
  lemma ErrorPageArrives(status: int, body: Option<string>, headers: Option<Headers>, entry: RequestData,
                         sm: Option<SessionMachine>, env: ReplyEnv)
    requires IsPull(entry.event) && status >= 0 && !IsSuccessful(status)
    requires var ct := env.http.contentType(headers.GetOr([])).0;
      ct != Wml && ct != WmlScript && env.http.typeAccepted(entry.requestHeaders, ct)
    requires !TooLarge(body.GetOr(""), entry.clientSduSize)
    ensures var out := ReturnReply(status, body, headers, entry, sm, env);
      out.reply.status == status && out.reply.responseBody == body.GetOr("") && out.setReferer.None?
  {
    var (ct, cs) := env.http.contentType(headers.GetOr([]));
    ConvertOtherType(Content(body.GetOr(""), ct, cs, entry.url), env.compilers);
  }

  /**
   * A transport failure with smart errors on reaches the client as 200 and
   * the compiled error deck, when the deck compiles and fits.
   */
  lemma SmartErrorReply(entry: RequestData, body: Option<string>, headers: Option<Headers>, sm: Option<SessionMachine>,
                        env: ReplyEnv, status: int, compiled: string)
    requires IsPull(entry.event) && status < 0 && env.smartErrors
    requires env.compilers.wml(FailureContent(entry.url, SessionReferer(sm), env).1.body, "") == Some(compiled)
    requires entry.clientSduSize <= 0 || |compiled| <= entry.clientSduSize
    ensures var out := ReturnReply(status, body, headers, entry, sm, env);
      out.reply.status == HttpOk && out.reply.responseBody == compiled && out.setReferer.None?
  {
    var c := FailureContent(entry.url, SessionReferer(sm), env).1;
    ConvertWml(c, env.compilers, compiled);
  }

  /**
   * A WML page that compiles makes the session remember its URL as the
   * referer; a page of a type no converter handles never does.
   */
  lemma RefererFollowsConversion(status: int, body: Option<string>, headers: Option<Headers>, entry: RequestData,
                                 sm: Option<SessionMachine>, env: ReplyEnv)
    requires IsPull(entry.event) && status >= 0
    ensures var (ct, cs) := env.http.contentType(headers.GetOr([]));
      ct == Wml && env.compilers.wml(body.GetOr(""), cs).Some? && entry.sessionId != -1 && sm.Some? ==>
      ReturnReply(status, body, headers, entry, sm, env).setReferer == Some(entry.url)
    ensures var (ct, cs) := env.http.contentType(headers.GetOr([]));
      ct != Wml && ct != WmlScript ==> ReturnReply(status, body, headers, entry, sm, env).setReferer.None?
  {
    var (ct, cs) := env.http.contentType(headers.GetOr([]));
    var c := Content(body.GetOr(""), ct, cs, entry.url);
    if ct == Wml && env.compilers.wml(body.GetOr(""), cs).Some? {
      ConvertWml(c, env.compilers, env.compilers.wml(body.GetOr(""), cs).value);
    }
    if ct != Wml && ct != WmlScript {
      ConvertOtherType(c, env.compilers);
    }
  }
}

=== FILE: urlmap.dfy ===
/**
 * The map-url rewrite table: rules built from "map-url" and
 * "map-url-device-home" configuration values, and the first-match,
 * case-insensitive lookup that rewrites the URL of every pull request.
 */
module UrlMap {
  import opened Wrappers
  import opened HttpHeaders

  /** A C string holds no NUL character. */
  predicate CString(s: string) {
    forall i :: 0 <= i < |s| ==> s[i] != '\0'
  }

  /** The character C code reads at index i: the terminating NUL past the end. */
  function CChar(s: string, i: nat): char {
    if i < |s| then s[i] else '\0'
  }

  /** octstr_get_cstr as C code sees it: the text up to the first NUL. */
  function CView(s: string): (r: string)
    ensures CString(r) && |r| <= |s| && r == s[..|r|]
    ensures |r| < |s| ==> s[|r|] == '\0'
    ensures CString(s) ==> r == s
  {
    if s == [] || s[0] == '\0' then [] else [s[0]] + CView(s[1..])
  }

  /**
   * strncasecmp(a, b, n) == 0, resumed at position i: characters are
   * compared ignoring case until n are done or both strings end together.
   */
  predicate StrNCaseEqFrom(a: string, b: string, i: nat, n: nat)
    decreases n - i
  {
    i >= n ||
    (ToLower(CChar(a, i)) == ToLower(CChar(b, i)) &&
     (CChar(a, i) == '\0' || StrNCaseEqFrom(a, b, i + 1, n)))
  }

  /** strncasecmp(a, b, n) == 0 */
  predicate StrNCaseEq(a: string, b: string, n: nat) {
    StrNCaseEqFrom(a, b, 0, n)
  }

  /** Characters lo..hi of a and b agree ignoring case. */
  predicate CaseEqRange(a: string, b: string, lo: nat, hi: nat)
    requires hi <= |a| && hi <= |b|
  {
    forall k :: lo <= k < hi ==> ToLower(a[k]) == ToLower(b[k])
  }

  lemma {:induction false} StrNCaseEqFromMeaning(a: string, b: string, i: nat, n: nat)
    requires CString(a) && CString(b)
    requires i <= |a| && i <= |b|
    ensures StrNCaseEqFrom(a, b, i, n) <==>
      if n <= |a| && n <= |b| then CaseEqRange(a, b, i, n)
      else |a| == |b| && CaseEqRange(a, b, i, |a|)
    decreases n - i
  {
    if i >= n {
    } else if i == |a| || i == |b| {
      ToLowerNul(CChar(a, i));
      ToLowerNul(CChar(b, i));
    } else {
      StrNCaseEqFromMeaning(a, b, i + 1, n);
    }
  }

  /**
   * On C strings, strncasecmp with bound n compares the first n characters
   * when both strings are that long, and otherwise the whole strings,
   * terminators included.
   */
  lemma StrNCaseEqMeaning(a: string, b: string, n: nat)
    requires CString(a) && CString(b)
    ensures StrNCaseEq(a, b, n) <==>
      if n <= |a| && n <= |b| then CaseEq(a[..n], b[..n]) else CaseEq(a, b)
  {
    StrNCaseEqFromMeaning(a, b, 0, n);
    if n <= |a| && n <= |b| {
      assert CaseEqRange(a, b, 0, n) <==> CaseEq(a[..n], b[..n]) by {
        assert forall k :: 0 <= k < n ==> a[..n][k] == a[k] && b[..n][k] == b[k];
      }
    }
  }

  /**
   * One node of the map-url list. `input` and `output` are the configured
   * strings; `inLen` characters of `input` take part in matching and
   * `outLen` characters of `output` are copied on a rewrite.
   */
  datatype Rule = Rule(input: string, inLen: nat, output: string, outLen: nat, inPrefix: bool, outPrefix: bool)

  /** The shape every stored rule has. */
  predicate WellFormed(r: Rule) {
    && |r.input| > 0 && CString(r.input)
    && |r.output| > 0 && CString(r.output)
    && (r.inPrefix <==> r.input[|r.input| - 1] == '*')
    && r.inLen == (if r.inPrefix then |r.input| - 1 else |r.input| + 1)
    && (r.outPrefix <==> r.output[|r.output| - 1] == '*')
    && r.outLen == (if r.outPrefix then |r.output| - 1 else |r.output|)
  }

  predicate ValidTable(t: seq<Rule>) {
    forall i :: 0 <= i < |t| ==> WellFormed(t[i])
  }

  /** A string without its trailing '*', if it has one. */
  function StripStar(s: string): (r: string)
    ensures |r| <= |s| && r == s[..|r|]
  {
    if |s| > 0 && s[|s| - 1] == '*' then s[..|s| - 1] else s
  }

  /**
   * wsp_http_map_url_do_config: appends the rule for src -> dst at the tail;
   * an empty src adds nothing. The source reads dst[strlen(dst)-1], so dst
   * must be non-empty (every caller passes a strtok token or a string it
   * has just extended with '*').
   */
  function DoConfig(t: seq<Rule>, src: string, dst: string): (r: seq<Rule>)
    requires CString(src) && CString(dst) && |dst| > 0
    ensures |src| == 0 ==> r == t
    ensures |src| > 0 ==> |r| == |t| + 1 && r[..|t|] == t
    ensures |src| > 0 ==> r[|t|].input == src && r[|t|].output == dst && WellFormed(r[|t|])
    ensures ValidTable(t) ==> ValidTable(r)
  {
    if |src| == 0 then t
    else
      var inPrefix := src[|src| - 1] == '*';
      var outPrefix := dst[|dst| - 1] == '*';
      t + [Rule(src, if inPrefix then |src| - 1 else |src| + 1,
                dst, if outPrefix then |dst| - 1 else |dst|,
                inPrefix, outPrefix)]
  }

  /** A URL matches a rule when strncasecmp(url, in, in_len) is zero. */
  predicate Matches(url: string, r: Rule) {
    StrNCaseEq(url, r.input, r.inLen)
  }

  /**
   * What matching a stored rule means: an input ending in '*' is a
   * case-insensitive prefix of the URL once the '*' is dropped; any other
   * input equals the whole URL ignoring case (the terminator takes part in
   * the comparison, so the lengths must agree).
   */
  lemma RuleMatchMeaning(url: string, r: Rule)
    requires WellFormed(r) && CString(url)
    ensures Matches(url, r) <==>
      if r.input[|r.input| - 1] == '*' then
        var stem := |r.input| - 1; stem <= |url| && CaseEq(url[..stem], r.input[..stem])
      else CaseEq(url, r.input)
  {
    StrNCaseEqMeaning(url, r.input, r.inLen);
  }

  /** Rule i is the first rule, in insertion order, that url matches. */
  predicate IsFirstMatch(t: seq<Rule>, url: string, i: nat) {
    i < |t| && Matches(url, t[i]) && forall j :: 0 <= j < i ==> !Matches(url, t[j])
  }

  function FindFrom(t: seq<Rule>, url: string, i: nat): (r: Option<nat>)
    requires i <= |t|
    ensures r.Some? ==> i <= r.value < |t| && Matches(url, t[r.value])
    ensures r.Some? ==> forall j :: i <= j < r.value ==> !Matches(url, t[j])
    ensures r.None? ==> forall j :: i <= j < |t| ==> !Matches(url, t[j])
    decreases |t| - i
  {
    if i == |t| then None
    else if Matches(url, t[i]) then Some(i)
    else FindFrom(t, url, i + 1)
  }

  /** wsp_http_map_find: the first rule the URL matches, if any. */
  function Find(t: seq<Rule>, url: string): (r: Option<nat>)
    ensures r.Some? ==> IsFirstMatch(t, url, r.value)
    ensures r.None? ==> forall j :: 0 <= j < |t| ==> !Matches(url, t[j])
  {
    FindFrom(t, url, 0)
  }

  /**
   * wsp_http_map_url: the rewritten URL. On a match the result is the first
   * out_len characters of the rule's output, followed by the URL's tail past
   * in_len when both prefix flags are set; otherwise the URL is unchanged.
   */
  function MapUrl(t: seq<Rule>, url: string): (r: string)
    requires ValidTable(t)
    ensures (forall j :: 0 <= j < |t| ==> !Matches(CView(url), t[j])) ==> r == url
  {
    var s := CView(url);
    match Find(t, s)
    case None => url
    case Some(i) =>
      var m := t[i];
      RuleMatchMeaning(s, m);
      m.output[..m.outLen] + (if m.inPrefix && m.outPrefix then s[m.inLen..] else "")
  }

  /**
   * The rewrite for the first matching rule, stated on the configured
   * strings: the output without its '*', plus the URL's tail past the input
   * stem exactly when both input and output end in '*'.
   */
  lemma MapUrlFirstMatch(t: seq<Rule>, url: string, i: nat)
    requires ValidTable(t) && CString(url)
    requires IsFirstMatch(t, url, i)
    ensures var m := t[i];
      var inStar := m.input[|m.input| - 1] == '*';
      var outStar := m.output[|m.output| - 1] == '*';
      && (inStar ==> |m.input| - 1 <= |url|)
      && MapUrl(t, url) == StripStar(m.output) + (if inStar && outStar then url[|m.input| - 1..] else "")
  {
    assert Find(t, url) == Some(i);
    RuleMatchMeaning(url, t[i]);
  }

  /** With both flags set, the unmatched suffix of the URL survives verbatim. */
  lemma MapUrlKeepsSuffix(t: seq<Rule>, url: string, i: nat)
    requires ValidTable(t) && CString(url)
    requires IsFirstMatch(t, url, i) && t[i].inPrefix && t[i].outPrefix
    ensures t[i].inLen <= |url|
    ensures var r := MapUrl(t, url); |r| >= |url| - t[i].inLen && r[|r| - (|url| - t[i].inLen)..] == url[t[i].inLen..]
  {
    MapUrlFirstMatch(t, url, i);
  }

  /** Rules are consulted in insertion order: a later rule never overrides a URL an earlier one matches. */
  lemma AppendKeepsEarlierMatch(t: seq<Rule>, r: Rule, url: string)
    requires ValidTable(t) && WellFormed(r)
    requires Find(t, CView(url)).Some?
    ensures ValidTable(t + [r]) && MapUrl(t + [r], url) == MapUrl(t, url)
  {
    var s := CView(url);
    var j := Find(t, s).value;
    var t2 := t + [r];
    assert forall k :: 0 <= k < |t| ==> t2[k] == t[k];
    assert IsFirstMatch(t2, s, j);
    var k := Find(t2, s).value;
    assert k == j;
  }

  // ---- map-url configuration values ----

  /** strtok's delimiters for map-url: space and tab. */
  predicate IsDelim(c: char) {
    c == ' ' || c == '\t'
  }

  /** A token s[start..end] and the position strtok resumes from. */
  datatype Token = Token(start: nat, end: nat, next: nat)

  function SkipDelims(s: string, i: nat): (j: nat)
    requires i <= |s|
    ensures i <= j <= |s|
    ensures forall k :: i <= k < j ==> IsDelim(s[k])
    ensures j < |s| ==> !IsDelim(s[j])
    decreases |s| - i
  {
    if i == |s| || !IsDelim(s[i]) then i else SkipDelims(s, i + 1)
  }

  function TokenEnd(s: string, i: nat): (j: nat)
    requires i <= |s|
    ensures i <= j <= |s|
    ensures forall k :: i <= k < j ==> !IsDelim(s[k])
    ensures j < |s| ==> IsDelim(s[j])
    decreases |s| - i
  {
    if i == |s| || IsDelim(s[i]) then i else TokenEnd(s, i + 1)
  }

  /**
   * strtok(.., " \t") resumed at position i: the next maximal run of
   * non-delimiters, and the position after the delimiter that ends it.
   */
  function StrTok(s: string, i: nat): (r: Option<Token>)
    requires i <= |s|
    ensures r.None? ==> forall k :: i <= k < |s| ==> IsDelim(s[k])
    ensures r.Some? ==> i <= r.value.start < r.value.end <= |s| && r.value.next <= |s|
    ensures r.Some? ==> forall k :: i <= k < r.value.start ==> IsDelim(s[k])
    ensures r.Some? ==> forall k :: r.value.start <= k < r.value.end ==> !IsDelim(s[k])
    ensures r.Some? ==> r.value.end == |s| || (IsDelim(s[r.value.end]) && r.value.next == r.value.end + 1)
    ensures r.Some? && r.value.end == |s| ==> r.value.next == |s|
  {
    var b := SkipDelims(s, i);
    if b == |s| then None
    else
      var e := TokenEnd(s, b);
      Some(Token(b, e, if e < |s| then e + 1 else e))
  }

  /** s holds at least two words separated by spaces or tabs. */
  predicate HasTwoWords(s: string) {
    exists i, m, k :: 0 <= i < m < k < |s| && !IsDelim(s[i]) && IsDelim(s[m]) && !IsDelim(s[k])
  }

  /**
   * wsp_http_map_url_config: the first two space/tab separated words of a
   * map-url value become a rule; a value with fewer words adds nothing.
   */
  function Config(t: seq<Rule>, s: string): (r: seq<Rule>)
    requires CString(s)
    ensures |r| == |t| || |r| == |t| + 1
    ensures r[..|t|] == t
    ensures ValidTable(t) ==> ValidTable(r)
  {
    match StrTok(s, 0)
    case None => t
    case Some(a) =>
      match StrTok(s, a.next)
      case None => t
      case Some(b) => DoConfig(t, s[a.start..a.end], s[b.start..b.end])
  }

  /** A map-url value yields a rule exactly when it has two words. */
  lemma ConfigAddsRuleIffTwoWords(t: seq<Rule>, s: string)
    requires CString(s)
    ensures |Config(t, s)| == |t| + 1 <==> HasTwoWords(s)
  {
    match StrTok(s, 0) {
      case None =>
        assert !HasTwoWords(s);
      case Some(a) =>
        match StrTok(s, a.next) {
          case None =>
            forall i, m, k | 0 <= i < m < k < |s| && !IsDelim(s[i]) && IsDelim(s[m])
              ensures IsDelim(s[k])
            {
              assert a.start <= i;
              assert a.end <= m;
            }
          case Some(b) =>
            assert IsDelim(s[a.end]);
            assert !IsDelim(s[a.start]) && !IsDelim(s[b.start]);
        }
    }
  }

  /** The new rule's strings are the first two words of the value. */
  lemma ConfigRuleIsFirstTwoWords(t: seq<Rule>, s: string)
    requires CString(s)
    requires |Config(t, s)| == |t| + 1
    ensures var a := StrTok(s, 0).value; var b := StrTok(s, a.next).value;
      Config(t, s)[|t|].input == s[a.start..a.end] && Config(t, s)[|t|].output == s[b.start..b.end]
  {
  }

  /** The two words of the value `http://a/<star> http://b/<star>` make one prefix rule. */
  lemma PrefixRuleScenarioTable(s: string)
    requires s == "http://a/* http://b/*"
    ensures Config([], s) == [Rule("http://a/*", 9, "http://b/*", 9, true, true)]
  {
    assert s == "http://a/*" + " " + "http://b/*";
    assert s[0..10] == "http://a/*";
    assert s[11..21] == "http://b/*";
    assert forall k :: 0 <= k < 10 ==> !IsDelim(s[k]);
    assert IsDelim(s[10]);
    var a := StrTok(s, 0).value;
    assert a.start == 0;
    assert a.end == 10;
    assert forall k :: 11 <= k < 21 ==> !IsDelim(s[k]);
    var b := StrTok(s, 11).value;
    assert b.start == 11;
    assert b.end == 21;
  }

  /** The one-rule table `http://a/<star>` to `http://b/<star>` rewrites http://a/x/y to http://b/x/y. */
  lemma PrefixRuleRewrite(t: seq<Rule>, url: string)
    requires t == [Rule("http://a/*", 9, "http://b/*", 9, true, true)] && url == "http://a/x/y"
    ensures ValidTable(t) && MapUrl(t, url) == "http://b/x/y"
  {
    var r := t[0];
    assert WellFormed(r);
    assert CString(url);
    assert url[..9] == r.input[..9];
    RuleMatchMeaning(url, r);
    assert IsFirstMatch(t, url, 0);
    MapUrlFirstMatch(t, url, 0);
    assert StripStar(r.output) == "http://b/";
    assert url[9..] == "x/y";
  }

  // ---- device home ----

  /** The pseudo-URL that map-url-device-home maps. */
  const DeviceHome := "DEVICE:home*"

  /**
   * wsp_http_map_url_config_device_home, as written: the destination is
   * meant to get a trailing '*' unless it has one, but the test reads
   * to[len], which is always the terminator, so '*' is always appended.
   */
  function ConfigDeviceHome(t: seq<Rule>, to: Option<string>): (r: seq<Rule>)
    requires to.Some? ==> CString(to.value)
    ensures to.None? ==> r == t
    ensures to.Some? ==> |r| == |t| + 1 && r[..|t|] == t && r[|t|].output == to.value + "*"
    ensures ValidTable(t) ==> ValidTable(r)
  {
    match to
    case None => t
    case Some(d) => DoConfig(t, DeviceHome, if CChar(d, |d|) != '*' then d + "*" else d)
  }

  /** The corrected device-home configuration: '*' is appended only when missing. */
  function ConfigDeviceHomeIntended(t: seq<Rule>, to: Option<string>): (r: seq<Rule>)
    requires to.Some? ==> CString(to.value)
    ensures to.None? ==> r == t
    ensures to.Some? ==> |r| == |t| + 1 && r[..|t|] == t && StripStar(r[|t|].output) == StripStar(to.value)
    ensures ValidTable(t) ==> ValidTable(r)
  {
    match to
    case None => t
    case Some(d) =>
      var d' := if |d| > 0 && d[|d| - 1] == '*' then d else d + "*";
      assert StripStar(d') == StripStar(d);
      DoConfig(t, DeviceHome, d')
  }

  /** "DEVICE:home" followed by `tail` matches the device-home rule. */
  lemma DeviceHomeRuleMatches(r: Rule, tail: string)
    requires WellFormed(r) && r.input == DeviceHome && CString(tail)
    ensures Matches("DEVICE:home" + tail, r)
  {
    var url := "DEVICE:home" + tail;
    RuleMatchMeaning(url, r);
    assert url[..11] == DeviceHome[..11];
  }

  /**
   * As written, a device-home request is rewritten to the configured
   * destination, '*' included, followed by the rest of the request URL.
   */
  lemma DeviceHomeAsWrittenRewrite(t: seq<Rule>, d: string, tail: string)
    requires ValidTable(t) && CString(d) && CString(tail)
    requires forall j :: 0 <= j < |t| ==> !Matches("DEVICE:home" + tail, t[j])
    ensures ValidTable(ConfigDeviceHome(t, Some(d)))
    ensures MapUrl(ConfigDeviceHome(t, Some(d)), "DEVICE:home" + tail) == d + tail
  {
    var t2 := ConfigDeviceHome(t, Some(d));
    var url := "DEVICE:home" + tail;
    DeviceHomeRuleMatches(t2[|t|], tail);
    assert IsFirstMatch(t2, url, |t|);
    MapUrlFirstMatch(t2, url, |t|);
    assert url[11..] == tail;
  }

  /** With the intended test, the destination's own trailing '*' is not copied into the URL. */
  lemma DeviceHomeIntendedRewrite(t: seq<Rule>, d: string, tail: string)
    requires ValidTable(t) && CString(d) && CString(tail)
    requires forall j :: 0 <= j < |t| ==> !Matches("DEVICE:home" + tail, t[j])
    ensures ValidTable(ConfigDeviceHomeIntended(t, Some(d)))
    ensures MapUrl(ConfigDeviceHomeIntended(t, Some(d)), "DEVICE:home" + tail) == StripStar(d) + tail
  {
    var t2 := ConfigDeviceHomeIntended(t, Some(d));
    var url := "DEVICE:home" + tail;
    DeviceHomeRuleMatches(t2[|t|], tail);
    assert IsFirstMatch(t2, url, |t|);
    MapUrlFirstMatch(t2, url, |t|);
    assert url[11..] == tail;
  }

  /**
   * The discrepancy: with a destination that already ends in '*', a request
   * for "DEVICE:home" keeps that '*' as written and drops it as intended.
   */
  lemma DeviceHomeStarCounterexample()
    ensures MapUrl(ConfigDeviceHome([], Some("http://h/*")), "DEVICE:home") == "http://h/*"
    ensures MapUrl(ConfigDeviceHomeIntended([], Some("http://h/*")), "DEVICE:home") == "http://h/"
  {
    DeviceHomeAsWrittenRewrite([], "http://h/*", "");
    DeviceHomeIntendedRewrite([], "http://h/*", "");
    assert "DEVICE:home" + "" == "DEVICE:home";
    assert "http://h/*" + "" == "http://h/*";
    assert StripStar("http://h/*") + "" == "http://h/";
  }
}

=== FILE: wrappers.dfy ===
/** Option, used where the source works with a pointer that may be NULL. */
module Wrappers {

  datatype Option<+T> = None | Some(value: T) {

    /** The value, or `default` when absent. */
    function GetOr(default: T): T {
      match this
      case Some(v) => v
      case None => default
    }
  }
}
